=== FILE: README.md ===
# Viewer, session and routing core of the 3D model client, in Dafny

This project models the stateful pieces of a single-page client that uploads,
lists and views 3D models (`.glb`, `.gltf`, `.obj`) and saves named camera
viewpoints ("scene states") on a REST backend:

- the model viewer: working out a file's extension, choosing the glTF or OBJ
  decoder or refusing the format, the load sequence (metadata, file, saved
  views, scene set-up) and how it classifies failures (401 versus the rest),
  capturing a viewpoint (camera position, orbit target, zoom), putting a saved
  one in front of the list, and re-applying a saved one;
- the zoom panel: zoom-in adds 0.2, zoom-out subtracts 0.2 down to a floor of 0.2;
- the save dialog: a name that is blank after trimming is never saved;
- the session: `localStorage` as a `map<string, string>`, with the auth
  context's init, login, register and logout, the auth service's login,
  register, logout and `isAuthenticated`, and the API client's interceptor
  that adds `Authorization: Bearer <token>`;
- the router: the `PrivateRoute` decision and the route table.

Every piece is an immutable datatype with pure transition functions. The
browser, three.js and axios are inputs: network replies are `Reply` values,
the decoded JWT payload is a `Claims` value, whether the canvas exists is a
boolean, and a decode finishing is a call to `DecodeFinished`.

Files, one module each: `js.dfy` (`Option`, `Result`, truthiness),
`text.dfy` (`split`, `join`, `pop`, ASCII case mapping, `trim`),
`storage.dfy`, `user_codec.dfy` (`JSON.stringify`/`JSON.parse` of the stored
user record), `api.dfy`, `auth_service.dfy`, `auth_context.dfy`, `routes.dfy`,
`camera.dfy`, `controls.dfy`, `save_modal.dfy`, `model_viewer.dfy`.

Behaviour of the code worth knowing, which the model keeps:

- Applying a viewpoint does not check that it is in the current list; the
  code applies whatever state it is handed (`ModelViewer.Apply`).
- A load does not reset the highlighted view, so "the active view is listed"
  holds across saves and applies but not across a reload of a different model
  (`ModelViewer.LoadMayOrphanActive`).
- Failures other than 401 are not told apart: metadata 404s, network errors,
  a missing canvas and an unsupported format all show "Failed to load model"
  with the error's message as the detail.
- The camera and controls are created before the format check, so an
  unsupported file leaves them in place (`ModelViewer.InitScene`).
- The non-blank name rule lives in the save dialog, not in the save handler.
- A forced logout removes `user`, `token` and `role` and nothing else.
- `register` in the auth context sets `currentUser` to what the service
  resolves with, which is `undefined`, so registering never signs anyone in.

## Model

| member | source | states |
|---|---|---|
| Text.Split | frontend/src/Components/viewer/ModelViewer.jsx:124 | `split('.')` always yields at least one piece, none holding the separator, and a single piece exactly when the separator is absent |
| Text.JoinSplit | frontend/src/Components/viewer/ModelViewer.jsx:124 | joining the pieces with the separator gives back the original name |
| Text.SplitJoin | frontend/src/Components/viewer/ModelViewer.jsx:124 | splitting a join of separator-free pieces gives back the pieces |
| Text.LastPieceIsSuffix | frontend/src/Components/viewer/ModelViewer.jsx:124 | `pop()` after `split('.')` is the text after the last dot |
| Text.LowerOfUpper | frontend/src/Components/viewer/ModelViewer.jsx:124 | `toLowerCase()` forgets the case a string was written in |
| Text.TrimIsCore | frontend/src/Components/viewer/SaveStateModal.jsx:9 | `trim()` yields the slice between leading and trailing whitespace, starting and ending on visible characters |
| Text.TrimEmptyIff | frontend/src/Components/viewer/SaveStateModal.jsx:9 | the trim is empty exactly when every character is whitespace |
| ModelViewer.Extension | frontend/src/Components/viewer/ModelViewer.jsx:124 | the extension never contains a dot, and a name without a dot yields the whole name lower-cased |
| ModelViewer.ExtensionAfterLastDot | frontend/src/Components/viewer/ModelViewer.jsx:124 | the extension is the lower-cased text after the last dot; a trailing dot yields the empty string |
| ModelViewer.ExtensionOfJoined | frontend/src/Components/viewer/ModelViewer.jsx:124 | `stem.ext` has extension `ext` lower-cased, whatever the stem holds |
| ModelViewer.ChooseDecoder | frontend/src/Components/viewer/ModelViewer.jsx:124-157 | glTF decoder exactly for `glb`/`gltf`, OBJ decoder exactly for `obj`, otherwise the error "Unsupported file format: <ext>" |
| ModelViewer.DecoderIgnoresCase | frontend/src/Components/viewer/ModelViewer.jsx:124-141 | an extension written in upper case selects the same decoder, or the same error, as in lower case |
| ModelViewer.InitScene | frontend/src/Components/viewer/ModelViewer.jsx:73-157 | no canvas throws "Canvas element not found" with nothing changed; otherwise the start camera and controls exist, the throw happens exactly when no decoder fits, and nothing but camera, controls and decoder changes |
| ModelViewer.Fail | frontend/src/Components/viewer/ModelViewer.jsx:56-70 | a 401 shows "Session expired. Please login again." and asks for sign-out and `/login`; anything else shows "Failed to load model" with the message or the network hint; loading ends either way, and nothing but error, detail and loading changes |
| ModelViewer.Load | frontend/src/Components/viewer/ModelViewer.jsx:33-71 | no model id: nothing happens; otherwise loading ends; the first failed fetch, in the order metadata, file, views, decides the outcome: a 401 shows "Session expired. Please login again." and asks for sign-out and `/login`, anything else shows "Failed to load model" with its message or the network hint, and the views list stays as it was; once all three fetches succeed the fetched views are listed even if scene set-up then fails; a load that ends without error shows the fetched metadata and views with the start camera; the dialog, the mesh and the highlighted view are never touched |
| ModelViewer.LoadRequests | frontend/src/Components/viewer/ModelViewer.jsx:39-51 | the requests issued are a prefix of metadata, file, views for the same id, ending right after the first failed fetch |
| ModelViewer.LoadFollowsRequests | frontend/src/Components/viewer/ModelViewer.jsx:39-51 | the load depends only on the replies to the requests it issues: after a failed metadata fetch the file and views replies play no part, and after a failed file fetch the views reply plays none |
| ModelViewer.ReadyIffAllSucceed | frontend/src/Components/viewer/ModelViewer.jsx:33-71 | with the canvas present, a load ends ready exactly when all three fetches succeed and a decoder fits; otherwise an error is shown |
| ModelViewer.ReadyLoadContents | frontend/src/Components/viewer/ModelViewer.jsx:40-55 | a ready viewer shows the fetched metadata and views, the start camera and the chosen decoder |
| ModelViewer.MetadataUnauthorizedExpires | frontend/src/Components/viewer/ModelViewer.jsx:39-64 | a 401 on the metadata fetch expires the session whatever the other fetches would return, and no other request is issued |
| ModelViewer.UnsupportedFormatFails | frontend/src/Components/viewer/ModelViewer.jsx:55-157 | an unsupported extension ends the load with "Failed to load model", the thrown message as detail, loading over and no decoder chosen |
| ModelViewer.ExpiryClearsCredentials | frontend/src/Components/viewer/ModelViewer.jsx:59-63 | after a 401 the stored token and user are gone, nobody is signed in and the app is at `/login` |
| ModelViewer.AsRenderedLoadNeverReady | frontend/src/Components/viewer/ModelViewer.jsx:235-243 | as the component runs it, a load whose fetches all succeed still ends on "Canvas element not found" with no camera |
| ModelViewer.DecodeFinished | frontend/src/Components/viewer/ModelViewer.jsx:129-154 | a finished decode adds the mesh and changes nothing else; a failed one shows "Failed to load 3D model" with the corruption hint and changes nothing else |
| ModelViewer.Save | frontend/src/Components/viewer/ModelViewer.jsx:203-222 | no camera or controls: nothing happens and nothing is sent; success: the saved state is put in front of the list, older views keep their order, the dialog closes, and nothing else changes; failure: only the error and its detail change, to "Failed to save view" with the server message or "Please try again" |
| ModelViewer.SaveCapturesCamera | frontend/src/Components/viewer/ModelViewer.jsx:206-214 | the posted body has exactly the model id, the name, the camera position, the orbit target as `rotation` and the zoom |
| ModelViewer.SubmitDialog | frontend/src/Components/viewer/ModelViewer.jsx:353-357 | the dialog reaches the save handler only with a name that is not blank |
| ModelViewer.Apply | frontend/src/Components/viewer/ModelViewer.jsx:224-233 | no camera or controls: nothing changes; otherwise the camera takes the state's position and zoom, the controls its target, and the state's id becomes active, with every other part of the viewer unchanged |
| ModelViewer.SnapshotIsStorable | frontend/src/Components/viewer/ModelViewer.jsx:206-214 | the body a save posts always holds a name, a camera position, a rotation and a zoom, which read back as the captured camera and orbit target |
| ModelViewer.CaptureThenApply | frontend/src/Components/viewer/ModelViewer.jsx:203-233 | when the backend's reply is the state it stored from the posted body, applying the new head of the list puts the camera and controls back exactly where they were captured, and activates the stored id |
| ModelViewer.Respond | frontend/src/Components/viewer/ModelViewer.jsx:353-357 | the dialog's save callback runs `handleSave` with the typed name, its cancel callback closes the dialog and sends nothing, and a submit without a callback changes nothing |
| ModelViewer.CancelClosesDialog | frontend/src/Components/viewer/ModelViewer.jsx:199-201 | opening the dialog, typing anything and cancelling leaves the viewer as before with the dialog closed, and nothing is sent |
| ModelViewer.TypedNameSaves | frontend/src/Components/viewer/ModelViewer.jsx:199-216 | opening the dialog, typing a name that is not blank and submitting posts to `/scene`, puts the stored view at the head of the list and closes the dialog |
| ModelViewer.ApplyKeepsActiveListed | frontend/src/Components/viewer/ModelViewer.jsx:323-331 | applying a listed view keeps the active id among the listed ids |
| ModelViewer.SaveKeepsActiveListed | frontend/src/Components/viewer/ModelViewer.jsx:214-216 | saving keeps a listed active id listed |
| ModelViewer.LoadMayOrphanActive | frontend/src/Components/viewer/ModelViewer.jsx:51-52 | a reload replaces the list but not the active id, which can then name no listed view |
| ModelViewer.PressControl | frontend/src/Components/viewer/Controls.jsx:4-19 | with the panel handed the camera and controls themselves (the `.current` wiring, not the ref objects ModelViewer.jsx:305 passes): without them nothing changes; reset returns camera and controls to the start; zoom-in and zoom-out replace only the camera's zoom, zoom-out by `max(0.2, zoom - 0.2)`; nothing but camera and controls ever changes |
| Controls.ZoomInCamera | frontend/src/Components/viewer/Controls.jsx:11-14 | zoom-in adds exactly 0.2 and moves nothing else |
| Controls.ZoomOutCamera | frontend/src/Components/viewer/Controls.jsx:16-19 | zoom-out never goes below 0.2, lands on 0.2 from any zoom up to 0.4, subtracts 0.2 above that, and moves nothing else |
| Controls.ZoomOutAtFloor | frontend/src/Components/viewer/Controls.jsx:17 | zoom-out at 0.2 leaves the camera as it is |
| Controls.ZoomInThenOut | frontend/src/Components/viewer/Controls.jsx:11-19 | zoom-in followed by zoom-out restores any zoom of at least 0.2 |
| Controls.ZoomStaysPositive | frontend/src/Components/viewer/Controls.jsx:11-19 | both buttons keep a positive zoom positive |
| Controls.Press | frontend/src/Components/viewer/Controls.jsx:4-19 | without camera or controls no panel is drawn; reset returns to the start rig; zoom buttons change only the zoom |
| Controls.AsWrittenDiverges | frontend/src/Components/viewer/Controls.jsx:5-14 | handed ref objects, the panel is drawn before the scene exists and zoom-in leaves the live camera's zoom unchanged |
| SaveModal.Submit | frontend/src/Components/viewer/SaveStateModal.jsx:7-12 | the save callback fires exactly when the trimmed name is not empty, with the name as typed; submit never cancels |
| SaveModal.Edit | frontend/src/Components/viewer/SaveStateModal.jsx:29 | typing sets the name to the field's value |
| SaveModal.Cancel | frontend/src/Components/viewer/SaveStateModal.jsx:37-43 | cancel invokes the parent's cancel callback, whatever was typed, and never the save callback |
| SaveModal.BlankNeverSaves | frontend/src/Components/viewer/SaveStateModal.jsx:9 | an empty or whitespace-only name triggers no callback |
| SaveModal.VisibleNameSaves | frontend/src/Components/viewer/SaveStateModal.jsx:9-10 | a name with a visible character is saved untrimmed |
| SaveModal.OpenedSubmitsNothing | frontend/src/Components/viewer/SaveStateModal.jsx:5 | the dialog opens with an empty name, so submitting at once saves nothing |
| Api.Intercept | frontend/src/services/api.js:11-17 | a truthy stored token sets `Authorization` to `Bearer <token>`; otherwise the request is unchanged; no other header, nor path, verb or body, changes |
| Api.InterceptIdempotent | frontend/src/services/api.js:11-17 | running the interceptor twice is the same as once |
| Api.SaveSceneBody | frontend/src/services/api.js:69-71 | the body holds `modelId` and every member of the state, the state's members winning a clash |
| Api.ModelPath | frontend/src/services/api.js:52-59 | `/user/{id}` carries the id as its second segment, which reads back; deletion is a DELETE of that same path |
| Api.FilePath | frontend/src/services/api.js:61-66 | `/user/{id}/file` carries the id as its second segment, followed by `file` |
| Api.ScenePath | frontend/src/services/api.js:74-77 | `/scene/{modelId}` carries the model id as its second segment |
| Api.UnencodedIdReachesFile | frontend/src/services/api.js:56-63 | ids are not encoded, so the id `x/file` addresses the file of model `x` |
| Api.UploadKeepsContentType | frontend/src/services/api.js:43-50 | after the interceptor, the upload's own headers are exactly its multipart `Content-Type` and, once signed in, the bearer token |
| Api.SignedOutCallsUnchanged | frontend/src/services/api.js:11-41 | signed out, the login and register posts and the model list go out as built, without `Authorization` |
| Api.StoreToken | frontend/src/services/api.js:25-35 | a reply's token is stored unconditionally, other keys untouched, and the reply returned; a failure leaves storage alone (no page calls these two exports) |
| Api.TokenlessReplyAuthorizesUndefined | frontend/src/services/api.js:25-35 | were these unused exports called, a reply without a token would store "undefined", and later requests would carry `Bearer undefined` |
| Storage.SetUndefinedIsTruthy | frontend/src/services/api.js:27 | storing an undefined value stores the truthy text "undefined" |
| AuthService.Login | frontend/src/services/auth.js:5-18 | the token is stored only when truthy, otherwise storage is unchanged; resolves with the reply's token and user; throws the server message or "Login failed" |
| AuthService.Register | frontend/src/services/auth.js:21-34 | storage is never written; resolves with undefined; throws the server message or "Registration failed" |
| AuthService.Logout | frontend/src/services/auth.js:37-39 | removes `token` and leaves every other key as it was |
| AuthService.IsAuthenticatedMeaning | frontend/src/services/auth.js:42-44 | signed in exactly when a non-empty token is stored |
| AuthService.LogoutSignsOut | frontend/src/services/auth.js:37-44 | after logout nobody is signed in, and a second logout changes nothing |
| AuthService.LoginAuthorizesRequests | frontend/src/services/auth.js:10-12 | after a login with a non-empty token, requests carry `Bearer <token>` |
| AuthService.LogoutStopsAuthorizing | frontend/src/services/auth.js:37-39 | after logout the interceptor leaves requests as they are |
| AuthContext.Init | frontend/src/AuthContext/AuthContext.jsx:10-16 | a truthy `user` entry that parses signs the user in, an absent or empty one leaves `currentUser` as it was, and loading ends in both cases (a stored text `JSON.parse` rejects is not modelled, see below) |
| AuthContext.Login | frontend/src/AuthContext/AuthContext.jsx:19-33 | on success `{token, email, username}` comes from the reply's token and the decoded payload, is stored under `user` on top of what the service stored, the token stays stored and the service counts the user as signed in, and it becomes `currentUser`; a token without a `.` is rejected with "Invalid token specified: missing part #2"; a failure leaves `currentUser` and `user` alone, and storage is exactly what the service left, so a token `jwtDecode` rejects stays stored |
| AuthContext.Register | frontend/src/AuthContext/AuthContext.jsx:35-40 | storage is untouched and `currentUser` becomes the service's undefined result |
| AuthContext.Logout | frontend/src/AuthContext/AuthContext.jsx:41-47 | removes `user`, `token` and `role`, keeps every other key, and clears `currentUser` |
| AuthContext.LogoutIdempotent | frontend/src/AuthContext/AuthContext.jsx:41-47 | two logouts equal one |
| AuthContext.LogoutThenReload | frontend/src/AuthContext/AuthContext.jsx:10-47 | after logout neither `isAuthenticated` nor a reload signs anyone in |
| AuthContext.LoginSurvivesReload | frontend/src/AuthContext/AuthContext.jsx:13-31 | a reload after login restores exactly the user login produced |
| AuthContext.RegisterLeavesSignedOut | frontend/src/AuthContext/AuthContext.jsx:35-40 | a successful registration leaves nobody signed in |
| UserCodec.DecodeEncode | frontend/src/AuthContext/AuthContext.jsx:30 | parsing the stored text gives back the stored user, whatever characters its fields hold |
| UserCodec.ParseQuoted | frontend/src/AuthContext/AuthContext.jsx:30 | a quoted, escaped string reads back as itself followed by the remaining text |
| Routes.PrivateRoute | frontend/src/App.js:13-19 | loading shows the placeholder whatever the user; otherwise the page exactly when `currentUser` is truthy, else a redirect to `/login` |
| Routes.Route | frontend/src/App.js:13-55 | an open route shows its page whatever the session; a guarded route shows the placeholder while loading, then its page exactly for a signed-in user and otherwise a redirect to `/login` (push); a shown page is the route's own page; the only redirects are to `/login` (push) and to `/dashboard` (replace) |
| Routes.RouteFor | frontend/src/App.js:34-55 | only the dashboard and the viewer are guarded, login and register are open, and everything else redirects to `/dashboard` with replace |
| Routes.GuardedPagesNeedUser | frontend/src/App.js:37-52 | the dashboard or viewer is shown only to a signed-in user after loading |
| Routes.AuthPagesOpen | frontend/src/App.js:35-36 | `/login` and `/register` render their pages whatever the session |
| Routes.DashboardGuarded | frontend/src/App.js:37-44 | `/dashboard` sits behind the guard |
| Routes.ViewerLinkRoundTrip | frontend/src/App.js:45-52 | `/viewer/<id>` reaches the guarded viewer for that same id |
| Routes.RootUnmatched | frontend/src/App.js:54 | `/` matches no route |
| Routes.UnmatchedGoesToDashboard | frontend/src/App.js:54 | an unmatched path redirects to `/dashboard` with replace, whatever the session |
| Routes.UnmatchedSignedOutEndsAtLogin | frontend/src/App.js:13-54 | signed out, `/` goes to `/dashboard`, which goes to `/login` |

## Left out

- Three.js scene set-up (renderer, lights, damping, the animation loop, the resize handler and cleanup): a foreign rendering library; the camera and controls are records.
- OrbitControls `update()` after applying a view may pull the camera back within the 1 to 50 distance bounds and damps motion; applying is modelled as setting the values exactly.
- The asynchronous lifecycle (await ordering, loader callbacks arriving at any time, unmount cleanup, `URL.createObjectURL`/`revokeObjectURL`): event-loop behaviour; fetch and decode outcomes are inputs, and a decode finishing is one transition.
- `controls.reset()` restores what the controls saved when they were created; the model fixes that to the start rig, as the viewer never saves another.
- Zoom arithmetic is over `real`: the client uses doubles, where 0.2 is inexact and zoom-in followed by zoom-out may differ from the start in the last bits.
- Controls.ZoomInThenOut: holds over the reals only, for the rounding reason above.
- `toLowerCase`/`toUpperCase` are modelled on ASCII letters only. No other character lower-cases to a letter of `glb`, `gltf` or `obj`, so the decoder choice is exact; only the text of the "Unsupported file format" message can differ for non-ASCII names.
- AuthContext.Init: a stored `user` text that `JSON.parse` rejects (for example `{`) makes the mount effect throw before `setLoading(false)`, so loading never ends and nobody is signed in; the model instead keeps such a text as `Unread`, signed in, with loading over. Separating texts `JSON.parse` rejects from other JSON not written by this client needs a full JSON parser, which the model does not include.
- ModelViewer.Stored: the backend is not part of this model; `Stored` is the assumption that the saved state it returns reads the posted body's name, camera position, rotation and zoom back unchanged, under an id of its choosing.
- UserCodec.Decode: reads only texts laid out as `JSON.stringify` writes the user record; other stored texts are kept as `Unread` and treated as a truthy `currentUser`, although `JSON.parse` may throw on them or yield a falsy value.
- Claims other than strings, and `jwtDecode` beyond its missing-payload check: the decoded payload of a token with a `.` is an input, and a decode failure is an input error message.
- axios transport, timeouts and the base URL, and the headers axios and the browser add or replace: axios's default `Accept` header on every request, and, for a form-data body, the browser-set multipart `Content-Type` with its boundary in place of the one the upload names. The model keeps the headers the client itself sets; the multipart body is not modelled.
- The router's percent-decoding of paths and any route nesting; matching is on `/`-separated segments, ASCII case-insensitive, with trailing slashes ignored.
- `applySceneState` in `services/api.js`: an unused network call with no client-side logic.
- The login, register, upload, model list and navbar components, `App.jsx` (a separate chat page shadowed by `App.js`) and `index.js` (the mount call): forms and plumbing that only forward to the calls modelled here.
- JSX markup, styling and toasts.

## Findings

| source | as written | input that shows it | evidently intended | confidence | as-written member | corrected member |
|---|---|---|---|---|---|---|
| frontend/src/Components/viewer/ModelViewer.jsx:305 | the ref objects `controlsRef` and `cameraRef` are passed to the panel, so its guard at Controls.jsx:5 never holds; reset calls `reset()` on the ref object and the zoom buttons write NaN to its `zoom` before calling `updateProjectionMatrix()` on it, so every button throws a TypeError, as the ref object has neither method | a live camera with zoom 1 and the zoom-in button: the camera's zoom stays 1 | pass `controlsRef.current` and `cameraRef.current`: the panel is hidden until the scene exists and zoom-in sets the zoom to 1.2 | not executed; high | Controls.PressAsWritten, lemma Controls.AsWrittenDiverges | Controls.Press, used by ModelViewer.PressControl |
| frontend/src/Components/viewer/ModelViewer.jsx:235-243 | `initScene` runs inside `fetchModel` while `loading` is still true, when the loading screen stands in place of the canvas, so the check at lines 74-76 always throws | any model id whose metadata, file and views all load, with file name `cube.glb`: the viewer shows "Failed to load model" / "Canvas element not found" | set up the scene once the canvas is mounted: the load ends ready with the start camera | not executed; high | ModelViewer.LoadAsRendered, lemma ModelViewer.AsRenderedLoadNeverReady | ModelViewer.Load with the canvas present, lemma ModelViewer.ReadyIffAllSucceed |

=== FILE: api.dfy ===
/**
 * The HTTP client of `services/api.js`: the request interceptor that attaches
 * the bearer token, and the shape (method, path, headers, body) of every call
 * the client makes. The transport itself is not modelled; replies are inputs.
 */
module Api {
  import opened Js
  import opened Storage
  import Text

  datatype Verb = Get | Post | Delete

  /** A JSON value the client puts in a request body. */
  datatype Field = Str(str: string) | Number(number: real) | Triple(x: real, y: real, z: real)

  datatype Body = NoBody | Json(fields: map<string, Field>) | FormData

  datatype Request = Request(verb: Verb, path: string, headers: map<string, string>, body: Body)

  /** An axios failure: `err.response?.status`, `err.message` and `err.response?.data?.message`. */
  datatype HttpError = HttpError(status: Option<int>, message: string, serverMessage: Option<string>)

  /** What an awaited call produced: the reply body, or the failure it was rejected with. */
  datatype Reply<+T> = Done(data: T) | Failed(failure: HttpError)

  /** The server's user object, carried through without being read. */
  datatype Profile = Profile(fields: map<string, string>)

  /** The members of a /login or /register reply the client reads. */
  datatype AuthReply = AuthReply(token: Option<string>, user: Option<Profile>)

  const Authorization := "Authorization"

  /**
   * The request interceptor: with a truthy stored token the Authorization
   * header becomes `Bearer <token>`; otherwise the request goes out as it was.
   */
  function Intercept(st: Store, req: Request): (r: Request)
    ensures r.verb == req.verb && r.path == req.path && r.body == req.body
    ensures Truthy(GetItem(st, TokenKey)) ==>
              Authorization in r.headers && r.headers[Authorization] == "Bearer " + st[TokenKey]
    ensures !Truthy(GetItem(st, TokenKey)) ==> r == req
    ensures forall h :: h != Authorization ==>
              (h in r.headers <==> h in req.headers) && (h in req.headers ==> r.headers[h] == req.headers[h])
  {
    var token := GetItem(st, TokenKey);
    if Truthy(token) then
      req.(headers := req.headers[Authorization := "Bearer " + token.value])
    else req
  }

  /** The interceptor only ever writes the Authorization header: applying it twice is applying it once. */
  lemma InterceptIdempotent(st: Store, req: Request)
    ensures Intercept(st, Intercept(st, req)) == Intercept(st, req)
  {
  }

  function Call(verb: Verb, path: string, body: Body): Request {
    Request(verb, path, map[], body)
  }

  /** `getCurrentUser()` and `getModels()`: both list the user's models. */
  function ListModels(): Request {
    Call(Get, "/user", NoBody)
  }

  function LoginCall(email: string, password: string): Request {
    Call(Post, "/login", Json(map["email" := Str(email), "password" := Str(password)]))
  }

  function RegisterCall(username: string, email: string, password: string): Request {
    Call(Post, "/register", Json(map["username" := Str(username), "email" := Str(email), "password" := Str(password)]))
  }

  function UploadModel(): Request {
    Request(Post, "/user/upload", map["Content-Type" := "multipart/form-data"], FormData)
  }

  function DeleteModel(id: string): Request {
    Call(Delete, "/user/" + id, NoBody)
  }

  function ModelById(id: string): Request {
    Call(Get, "/user/" + id, NoBody)
  }

  function ModelFile(id: string): Request {
    Call(Get, "/user/" + id + "/file", NoBody)
  }

  function SceneStates(modelId: string): Request {
    Call(Get, "/scene/" + modelId, NoBody)
  }

  /** `{ modelId, ...state }`: the model id first, then every member of the state, which win on a clash. */
  function SaveSceneBody(modelId: string, state: map<string, Field>): (r: map<string, Field>)
    ensures r.Keys == {"modelId"} + state.Keys
    ensures forall k :: k in state ==> r[k] == state[k]
    ensures "modelId" !in state ==> r["modelId"] == Str(modelId)
  {
    map["modelId" := Str(modelId)] + state
  }

  function SaveSceneState(modelId: string, state: map<string, Field>): Request {
    Call(Post, "/scene", Json(SaveSceneBody(modelId, state)))
  }

  /** An upload keeps its multipart content type once the interceptor has added the bearer token. */
  lemma UploadKeepsContentType(st: Store)
    requires Truthy(GetItem(st, TokenKey))
    ensures var r := Intercept(st, UploadModel());
            && r.headers.Keys == {"Content-Type", Authorization}
            && r.headers["Content-Type"] == "multipart/form-data"
            && r.headers[Authorization] == "Bearer " + st[TokenKey]
  {
  }

  /** Signed out, the credential posts and the model list go out exactly as built, with no Authorization header. */
  lemma SignedOutCallsUnchanged(st: Store, email: string, username: string, password: string)
    requires !Truthy(GetItem(st, TokenKey))
    ensures Intercept(st, LoginCall(email, password)) == LoginCall(email, password)
    ensures Intercept(st, RegisterCall(username, email, password)) == RegisterCall(username, email, password)
    ensures Authorization !in Intercept(st, ListModels()).headers
  {
  }

  /** `/a/b` splits into its segments when neither holds a slash. */
  lemma TwoSegments(a: string, b: string)
    requires '/' !in a && '/' !in b
    ensures Text.Split(['/'] + a + ['/'] + b, '/') == ["", a, b]
  {
    assert ['/'] + a + ['/'] + b == [] + ['/'] + (a + ['/'] + b);
    Text.SplitAfterPiece([], a + ['/'] + b, '/');
    Text.SplitAfterPiece(a, b, '/');
  }

  /** `/a/b/c` splits into its segments when none holds a slash. */
  lemma ThreeSegments(a: string, b: string, c: string)
    requires '/' !in a && '/' !in b && '/' !in c
    ensures Text.Split(['/'] + a + ['/'] + b + ['/'] + c, '/') == ["", a, b, c]
  {
    var tail := b + ['/'] + c;
    assert ['/'] + a + ['/'] + b + ['/'] + c == [] + ['/'] + (a + ['/'] + tail);
    Text.SplitAfterPiece([], a + ['/'] + tail, '/');
    Text.SplitAfterPiece(a, tail, '/');
    Text.SplitAfterPiece(b, c, '/');
  }

  /** `/user/{id}` names the model as its second segment; deletion uses the same path. */
  lemma ModelPath(id: string)
    requires '/' !in id
    ensures Text.Split(ModelById(id).path, '/') == ["", "user", id]
    ensures DeleteModel(id).path == ModelById(id).path
    ensures DeleteModel(id).verb == Delete && ModelById(id).verb == Get
  {
    assert ModelById(id).path == ['/'] + "user" + ['/'] + id;
    TwoSegments("user", id);
  }

  /** `/scene/{modelId}` names the model as its second segment. */
  lemma ScenePath(id: string)
    requires '/' !in id
    ensures Text.Split(SceneStates(id).path, '/') == ["", "scene", id]
  {
    assert SceneStates(id).path == ['/'] + "scene" + ['/'] + id;
    TwoSegments("scene", id);
  }

  /** `/user/{id}/file` names the model as its second segment, followed by `file`. */
  lemma FilePath(id: string)
    requires '/' !in id
    ensures Text.Split(ModelFile(id).path, '/') == ["", "user", id, "file"]
  {
    assert ModelFile(id).path == ['/'] + "user" + ['/'] + id + ['/'] + "file";
    ThreeSegments("user", id, "file");
  }

  /** Ids are spliced in without encoding: an id holding `/file` addresses another model's file. */
  lemma UnencodedIdReachesFile(id: string)
    ensures ModelById(id + "/file") == ModelFile(id)
  {
  }

  /** The outcome of a call that may touch storage: the store afterwards and what the call returned or threw. */
  datatype Outcome<+T> = Outcome(store: Store, result: Result<T>)

  /**
   * `login` and `register` of this module: on a reply, the reply's token is
   * stored unconditionally and the reply body is returned; a failure is
   * rethrown with storage untouched. No page calls these two exports: sign-in
   * and registration go through `services/auth.js` (`AuthService`).
   */
  function StoreToken(st: Store, reply: Reply<AuthReply>): (r: Outcome<AuthReply>)
    ensures reply.Failed? ==> r.store == st && r.result.Err? && r.result.error == reply.failure.message
    ensures reply.Done? ==> r.result == Ok(reply.data)
    ensures reply.Done? ==> TokenKey in r.store && r.store - {TokenKey} == st - {TokenKey}
    ensures reply.Done? && reply.data.token.Some? ==> r.store[TokenKey] == reply.data.token.value
  {
    match reply
    case Failed(e) => Outcome(st, Err(e.message))
    case Done(data) => Outcome(SetItem(st, TokenKey, data.token), Ok(data))
  }

  /**
   * Were these exports called, a reply without a token would leave the text
   * "undefined" under `token`, which is truthy, so every later request would
   * carry `Bearer undefined`.
   */
  lemma TokenlessReplyAuthorizesUndefined(st: Store, user: Option<Profile>, req: Request)
    ensures var after := StoreToken(st, Done(AuthReply(None, user))).store;
            Intercept(after, req).headers[Authorization] == "Bearer undefined"
  {
  }
}

=== FILE: auth_context.dfy ===
/**
 * `AuthContext.jsx`: the provider's session state (`currentUser`, `loading`)
 * together with the storage it reads and writes.
 */
module AuthContext {
  import opened Js
  import opened Storage
  import opened Api
  import AuthService
  import opened UserCodec

  /**
   * The value of `currentUser`: null or undefined (Anonymous), a user record
   * this client wrote, or a stored text it did not write, whose parse the model
   * does not follow.
   */
  datatype Principal = Anonymous | Member(user: User) | Unread(raw: string)

  /** `currentUser` is truthy: anything but null or undefined. */
  predicate SignedIn(p: Principal) {
    !p.Anonymous?
  }

  /** The email and username the token's payload carries, as `jwtDecode` returns them. */
  datatype Claims = Claims(email: Option<string>, username: Option<string>)

  datatype Session = Session(store: Store, currentUser: Principal, loading: bool)

  /** The message `jwtDecode` throws when handed something that is not a string. */
  const NotAString := "Invalid token specified: must be a string"

  /**
   * The message `jwtDecode` throws for a string without a `.`: splitting it
   * leaves no second part to read the payload from.
   */
  const MissingPayload := "Invalid token specified: missing part #2"

  /** The provider's first render: no user yet, still loading. */
  function Mount(st: Store): Session {
    Session(st, Anonymous, true)
  }

  /** `JSON.parse` of a stored user entry. */
  function Parse(raw: string): Principal {
    match Decode(raw)
    case Some(u) => Member(u)
    case None => Unread(raw)
  }

  /** The mount effect: restores `currentUser` from a truthy `user` entry, and stops loading in every case. */
  function Init(s: Session): (r: Session)
    ensures !r.loading && r.store == s.store
    ensures Truthy(GetItem(s.store, UserKey)) ==> SignedIn(r.currentUser)
    ensures !Truthy(GetItem(s.store, UserKey)) ==> r.currentUser == s.currentUser
  {
    var raw := GetItem(s.store, UserKey);
    if Truthy(raw) then s.(currentUser := Parse(raw.value), loading := false)
    else s.(loading := false)
  }

  /**
   * `login`: signs in through the service, decodes the returned token and
   * stores `{token, email, username}` as `user`, which becomes `currentUser`.
   * A service failure or a token `jwtDecode` rejects is rethrown; in the
   * latter case the token the service stored stays stored. A token without
   * a `.` is always rejected, as it has no payload part; `decoded` is what
   * `jwtDecode` makes of the payload of any other token.
   */
  function Login(s: Session, reply: Reply<AuthReply>, decoded: Result<Claims>): (r: (Session, Result<User>))
    ensures reply.Failed? ==> r.0 == s && r.1.Err?
    ensures r.1.Ok? ==> reply.Done? && reply.data.token.Some? && decoded.Ok?
    ensures r.1.Ok? ==>
              var u := r.1.value;
              && u == User(reply.data.token.value, decoded.value.email, decoded.value.username)
              && r.0.currentUser == Member(u)
              && GetItem(r.0.store, UserKey) == Some(Encode(u))
    ensures r.1.Ok? ==> r.0.store == AuthService.Login(s.store, reply).store[UserKey := Encode(r.1.value)]
    ensures reply.Done? && reply.data.token.Some? && '.' !in reply.data.token.value ==> r.1 == Err(MissingPayload)
    ensures r.1.Ok? ==> '.' in r.1.value.token
    ensures r.1.Ok? ==> GetItem(r.0.store, TokenKey) == Some(r.1.value.token) && AuthService.IsAuthenticated(r.0.store)
    ensures r.1.Err? ==> r.0.currentUser == s.currentUser && GetItem(r.0.store, UserKey) == GetItem(s.store, UserKey)
    ensures r.1.Err? ==> r.0.store == AuthService.Login(s.store, reply).store
    ensures r.0.loading == s.loading
  {
    var auth := AuthService.Login(s.store, reply);
    var s1 := s.(store := auth.store);
    match auth.result
    case Err(e) => (s1, Err(e))
    case Ok(res) =>
      if res.token.None? then (s1, Err(NotAString))
      else if '.' !in res.token.value then (s1, Err(MissingPayload))
      else match decoded
        case Err(e) => (s1, Err(e))
        case Ok(claims) =>
          var u := User(res.token.value, claims.email, claims.username);
          (s1.(store := SetItem(s1.store, UserKey, Some(Encode(u))), currentUser := Member(u)), Ok(u))
  }

  /**
   * `register`: `currentUser` becomes what the service resolved with, which is
   * undefined; storage is not written. Failures are rethrown.
   */
  function Register(s: Session, reply: Reply<AuthReply>): (r: (Session, Result<Option<Profile>>))
    ensures r.0.store == s.store && r.0.loading == s.loading
    ensures reply.Done? ==> r.1 == Ok(None) && r.0.currentUser == Anonymous
    ensures reply.Failed? ==> r.1.Err? && r.0 == s
  {
    var res := AuthService.Register(s.store, reply);
    match res.result
    case Err(e) => (s, Err(e))
    case Ok(v) => (s.(currentUser := Anonymous), Ok(v))  // the service resolved with undefined
  }

  /** `logout`: removes `user`, `token` and `role`, and clears `currentUser`. */
  function Logout(s: Session): (r: Session)
    ensures UserKey !in r.store && TokenKey !in r.store && RoleKey !in r.store
    ensures forall k :: k != UserKey && k != TokenKey && k != RoleKey ==> GetItem(r.store, k) == GetItem(s.store, k)
    ensures r.currentUser == Anonymous && r.loading == s.loading
  {
    Session(RemoveItem(RemoveItem(RemoveItem(s.store, UserKey), TokenKey), RoleKey), Anonymous, s.loading)
  }

  /** Logging out twice is logging out once. */
  lemma LogoutIdempotent(s: Session)
    ensures Logout(Logout(s)) == Logout(s)
  {
  }

  /** After logout neither the service nor a reload considers anyone signed in. */
  lemma LogoutThenReload(s: Session)
    ensures !AuthService.IsAuthenticated(Logout(s).store)
    ensures Init(Mount(Logout(s).store)).currentUser == Anonymous
  {
  }

  /** A reload after a successful login restores exactly the user login produced. */
  lemma LoginSurvivesReload(s: Session, reply: Reply<AuthReply>, decoded: Result<Claims>)
    requires Login(s, reply, decoded).1.Ok?
    ensures var (s', r) := Login(s, reply, decoded);
            Init(Mount(s'.store)).currentUser == Member(r.value)
  {
    var (s', r) := Login(s, reply, decoded);
    DecodeEncode(r.value);
    var raw := Encode(r.value);
    assert raw[0] == '{';
  }

  /** Registering never signs anyone in, whatever the server replied. */
  lemma RegisterLeavesSignedOut(s: Session, reply: Reply<AuthReply>)
    requires reply.Done?
    ensures !SignedIn(Register(s, reply).0.currentUser)
  {
  }
}

=== FILE: auth_service.dfy ===
/** `services/auth.js`: login, register, logout and the signed-in check over the token entry of storage. */
module AuthService {
  import opened Js
  import opened Storage
  import opened Api

  /** What `login` resolves with: the reply's token and user, either possibly undefined. */
  datatype LoginResult = LoginResult(token: Option<string>, user: Option<Profile>)

  /** The value thrown on failure: the server's message when it sent a non-empty one, else the fallback. */
  function Thrown(e: HttpError, fallback: string): string {
    OrElse(e.serverMessage, fallback)
  }

  /**
   * `login`: the token is stored only when the reply carries a truthy one; the
   * call resolves with the reply's token and user, or throws the server's
   * message or "Login failed".
   */
  function Login(st: Store, reply: Reply<AuthReply>): (r: Outcome<LoginResult>)
    ensures reply.Done? ==> r.result == Ok(LoginResult(reply.data.token, reply.data.user))
    ensures reply.Done? && Truthy(reply.data.token) ==> r.store == st[TokenKey := reply.data.token.value]
    ensures !(reply.Done? && Truthy(reply.data.token)) ==> r.store == st
    ensures reply.Failed? ==> r.result.Err?
    ensures reply.Failed? && Truthy(reply.failure.serverMessage) ==> r.result.error == reply.failure.serverMessage.value
    ensures reply.Failed? && !Truthy(reply.failure.serverMessage) ==> r.result.error == "Login failed"
  {
    match reply
    case Failed(e) => Outcome(st, Err(Thrown(e, "Login failed")))
    case Done(data) =>
      var st' := if Truthy(data.token) then SetItem(st, TokenKey, data.token) else st;
      Outcome(st', Ok(LoginResult(data.token, data.user)))
  }

  /**
   * `register`: storage is never written; the call resolves with undefined
   * (None) or throws the server's message or "Registration failed".
   */
  function Register(st: Store, reply: Reply<AuthReply>): (r: Outcome<Option<Profile>>)
    ensures r.store == st
    ensures r.result.Ok? <==> reply.Done?
    ensures r.result.Ok? ==> r.result.value == None
    ensures reply.Failed? && Truthy(reply.failure.serverMessage) ==> r.result.error == reply.failure.serverMessage.value
    ensures reply.Failed? && !Truthy(reply.failure.serverMessage) ==> r.result.error == "Registration failed"
  {
    match reply
    case Failed(e) => Outcome(st, Err(Thrown(e, "Registration failed")))
    case Done(_) => Outcome(st, Ok(None))
  }

  /** `logout`: removes the token entry and nothing else. */
  function Logout(st: Store): (r: Store)
    ensures TokenKey !in r
    ensures forall k :: k != TokenKey ==> GetItem(r, k) == GetItem(st, k)
  {
    RemoveItem(st, TokenKey)
  }

  /** `isAuthenticated`: a non-empty token is stored. */
  predicate IsAuthenticated(st: Store) {
    Truthy(GetItem(st, TokenKey))
  }

  /** Signed in exactly when a non-empty token is stored. */
  lemma IsAuthenticatedMeaning(st: Store)
    ensures IsAuthenticated(st) <==> (TokenKey in st && |st[TokenKey]| > 0)
  {
  }

  /** After logout nobody is signed in, and a second logout changes nothing. */
  lemma LogoutSignsOut(st: Store)
    ensures !IsAuthenticated(Logout(st))
    ensures Logout(Logout(st)) == Logout(st)
  {
  }

  /** A successful login with a non-empty token signs in, and the next request carries that token. */
  lemma LoginAuthorizesRequests(st: Store, token: string, user: Option<Profile>, req: Request)
    requires token != ""
    ensures var after := Login(st, Done(AuthReply(Some(token), user))).store;
            IsAuthenticated(after) && Intercept(after, req).headers[Authorization] == "Bearer " + token
  {
  }

  /** Requests after logout carry whatever Authorization header their caller gave them, and no stored token. */
  lemma LogoutStopsAuthorizing(st: Store, req: Request)
    ensures Intercept(Logout(st), req) == req
  {
  }
}

=== FILE: camera.dfy ===
/** The parts of the three.js camera and orbit controls the viewer reads and writes. */
module Camera {

  datatype Vec3 = Vec3(x: real, y: real, z: real)

  /** The perspective camera: where it stands and its zoom factor. */
  datatype Camera = Camera(position: Vec3, zoom: real)

  /** The orbit controls: the point the camera orbits around and looks at. */
  datatype Orbit = Orbit(target: Vec3)

  /** Camera and controls together, as the viewer creates them. */
  datatype Rig = Rig(camera: Camera, orbit: Orbit)

  /** The camera the scene starts with: five units back along z, three.js's default zoom of 1. */
  const InitialCamera := Camera(Vec3(0.0, 0.0, 5.0), 1.0)

  /** The controls start out orbiting the origin. */
  const InitialOrbit := Orbit(Vec3(0.0, 0.0, 0.0))

  const InitialRig := Rig(InitialCamera, InitialOrbit)
}

=== FILE: controls.dfy ===
/**
 * `Controls.jsx`: the reset / zoom-in / zoom-out panel drawn over the canvas.
 * Zoom is modelled over the reals; the client computes it in doubles.
 */
module Controls {
  import opened Js
  import opened Camera

  const Step: real := 0.2
  const Floor: real := 0.2

  datatype Button = ResetView | ZoomIn | ZoomOut

  /** The result of pressing a button: no panel was drawn, the rig it leaves, or the TypeError it threw. */
  datatype Click = NotRendered | Applied(rig: Rig) | TypeErrorThrown

  /** Zoom-in: the zoom grows by one step, nothing else moves. */
  function ZoomInCamera(c: Camera): (r: Camera)
    ensures r.position == c.position
    ensures r.zoom > c.zoom && r.zoom - c.zoom == Step
  {
    c.(zoom := c.zoom + Step)
  }

  /** Zoom-out: the zoom shrinks by one step but never below the floor, nothing else moves. */
  function ZoomOutCamera(c: Camera): (r: Camera)
    ensures r.position == c.position
    ensures r.zoom >= Floor
    ensures c.zoom <= Floor + Step ==> r.zoom == Floor
    ensures c.zoom > Floor + Step ==> r.zoom == c.zoom - Step
    ensures c.zoom >= Floor ==> r.zoom <= c.zoom
  {
    c.(zoom := if Floor > c.zoom - Step then Floor else c.zoom - Step)
  }

  /** The floor is a fixed point of zoom-out. */
  lemma ZoomOutAtFloor(c: Camera)
    requires c.zoom == Floor
    ensures ZoomOutCamera(c) == c
  {
  }

  /** Zooming in and back out restores any zoom at or above the floor. */
  lemma ZoomInThenOut(c: Camera)
    requires c.zoom >= Floor
    ensures ZoomOutCamera(ZoomInCamera(c)) == c
  {
  }

  /** Both buttons keep the zoom positive, the invariant every saved view relies on. */
  lemma ZoomStaysPositive(c: Camera)
    requires c.zoom > 0.0
    ensures ZoomInCamera(c).zoom > 0.0 && ZoomOutCamera(c).zoom > 0.0
  {
  }

  /**
   * The panel given the camera and the controls themselves: nothing is drawn
   * unless both exist; reset returns to the rig the controls were created with,
   * and the zoom buttons change only the camera's zoom.
   */
  function Press(orbit: Option<Orbit>, camera: Option<Camera>, b: Button): (r: Click)
    ensures r.NotRendered? <==> orbit.None? || camera.None?
    ensures !r.TypeErrorThrown?
    ensures r.Applied? && b == ResetView ==> r.rig == InitialRig
    ensures r.Applied? && b == ZoomIn ==> r.rig == Rig(ZoomInCamera(camera.value), orbit.value)
    ensures r.Applied? && b == ZoomOut ==> r.rig == Rig(ZoomOutCamera(camera.value), orbit.value)
  {
    if orbit.None? || camera.None? then NotRendered
    else match b
      case ResetView => Applied(InitialRig)
      case ZoomIn => Applied(Rig(ZoomInCamera(camera.value), orbit.value))
      case ZoomOut => Applied(Rig(ZoomOutCamera(camera.value), orbit.value))
  }

  /** A React ref object, `{ current }`. */
  datatype Ref<T> = Ref(current: Option<T>)

  /**
   * The panel as the viewer renders it, with the ref objects in place of the
   * camera and controls. A ref object is always truthy, so the guard never
   * holds. Reset calls `reset()` on the ref object, which lacks it; the zoom
   * handlers first write `zoom` on the ref object (it becomes NaN) and then
   * call `updateProjectionMatrix()`, which it lacks too. Either way a
   * TypeError is thrown before the camera or controls are touched.
   */
  function PressAsWritten(orbit: Ref<Orbit>, camera: Ref<Camera>, b: Button): Click {
    TypeErrorThrown
  }

  /** The camera after a click: only an applied click moves it. */
  function CameraAfter(camera: Option<Camera>, c: Click): Option<Camera> {
    if c.Applied? then Some(c.rig.camera) else camera
  }

  /**
   * As written, the guard does not hide the panel before the scene exists, and
   * zoom-in on a live camera leaves its zoom where it was instead of adding a step.
   */
  lemma AsWrittenDiverges(o: Orbit, c: Camera)
    ensures Press(None, None, ZoomIn) == NotRendered
    ensures PressAsWritten(Ref(None), Ref(None), ZoomIn) != NotRendered
    ensures CameraAfter(Some(c), Press(Some(o), Some(c), ZoomIn)).value.zoom == c.zoom + Step
    ensures CameraAfter(Some(c), PressAsWritten(Ref(Some(o)), Ref(Some(c)), ZoomIn)).value.zoom == c.zoom
  {
  }
}

=== FILE: js.dfy ===
/** JavaScript values the client passes around, reduced to what its branches inspect. */
module Js {

  /** A value that may be `null`/`undefined` (None) or present (Some). */
  datatype Option<+T> = None | Some(value: T)

  /** The outcome of an operation that may throw: a value, or the message it threw. */
  datatype Result<+T> = Ok(value: T) | Err(error: string)

  /** `!!v` for a string that may be missing: only a present, non-empty string is truthy. */
  predicate Truthy(v: Option<string>) {
    v.Some? && v.value != ""
  }

  /** `v || fallback` for a string that may be missing. */
  function OrElse(v: Option<string>, fallback: string): string {
    if Truthy(v) then v.value else fallback
  }
}

=== FILE: model_viewer.dfy ===
/**
 * `ModelViewer.jsx`: loading one model, choosing its decoder, and saving and
 * re-applying camera viewpoints ("scene states"). The viewer's React state is
 * one immutable record; each handler is a function from record to record.
 * Network replies, the presence of the canvas and decode completion are inputs.
 */
module ModelViewer {
  import opened Js
  import opened Camera
  import opened Api
  import Text
  import Controls
  import SaveModal
  import AuthContext
  import Storage

  datatype Decoder = GltfDecoder | ObjDecoder

  /** A saved viewpoint as the server returns it. */
  datatype SceneState = SceneState(id: Option<string>, name: string, cameraPosition: Vec3, rotation: Vec3, zoom: real)

  /** The model metadata the viewer reads. */
  datatype ModelMeta = ModelMeta(originalName: string)

  /** The viewer's state, and the three.js objects its refs hold. */
  datatype Viewer = Viewer(
    loading: bool,
    error: string,
    errorDetails: string,
    showSaveModal: bool,
    savedStates: seq<SceneState>,
    activeState: Option<string>,
    modelData: Option<ModelMeta>,
    camera: Option<Camera>,
    orbit: Option<Orbit>,
    decoder: Option<Decoder>,
    meshInScene: bool)

  /** A navigation or sign-out the viewer asks of the rest of the app. */
  datatype Effect = SignOut | NavigateTo(path: string)

  const SessionExpired := "Session expired. Please login again."
  const LoadFailed := "Failed to load model"
  const NetworkHint := "Please check your network connection"
  const NoCanvas := "Canvas element not found"
  const DecodeFailed := "Failed to load 3D model"
  const DecodeHint := "The file might be corrupted or incompatible"
  const SaveFailed := "Failed to save view"
  const SaveHint := "Please try again"

  /** The viewer's first render. */
  const Initial := Viewer(true, "", "", false, [], None, None, None, None, None, false)

  // ---------------------------------------------------------------------------
  // Choosing a decoder

  /** `filename.split('.').pop().toLowerCase()`. */
  function Extension(filename: string): (ext: string)
    ensures '.' !in ext
    ensures '.' !in filename ==> ext == Text.ToLower(filename)
  {
    var raw := Text.Last(Text.Split(filename, '.'));
    Text.LowerKeepsNonLetter(raw, '.');
    Text.ToLower(raw)
  }

  /** The extension is the lower-cased text after the last dot; a trailing dot leaves it empty. */
  lemma ExtensionAfterLastDot(filename: string, j: int)
    requires 0 <= j < |filename| && filename[j] == '.' && '.' !in filename[j + 1..]
    ensures Extension(filename) == Text.ToLower(filename[j + 1..])
    ensures j == |filename| - 1 ==> Extension(filename) == ""
  {
    Text.LastPieceIsSuffix(filename, '.', j);
  }

  /** Whatever the stem, `stem.ext` has extension `ext` lower-cased. */
  lemma ExtensionOfJoined(stem: string, ext: string)
    requires '.' !in ext
    ensures Extension(stem + "." + ext) == Text.ToLower(ext)
  {
    var s := stem + "." + ext;
    assert s[|stem|] == '.' && s[|stem| + 1..] == ext;
    ExtensionAfterLastDot(s, |stem|);
  }

  /**
   * `.glb` and `.gltf` files go to the glTF decoder and `.obj` files to the OBJ
   * decoder; any other extension is refused with a message naming it.
   */
  function ChooseDecoder(filename: string): (r: Result<Decoder>)
    ensures r == Ok(GltfDecoder) <==> Extension(filename) in {"glb", "gltf"}
    ensures r == Ok(ObjDecoder) <==> Extension(filename) == "obj"
    ensures r.Err? <==> Extension(filename) !in {"glb", "gltf", "obj"}
    ensures r.Err? ==> r.error == "Unsupported file format: " + Extension(filename)
  {
    var ext := Extension(filename);
    if ext == "glb" || ext == "gltf" then Ok(GltfDecoder)
    else if ext == "obj" then Ok(ObjDecoder)
    else Err("Unsupported file format: " + ext)
  }

  /** The choice of decoder does not depend on the case the extension is written in. */
  lemma DecoderIgnoresCase(stem: string, ext: string)
    requires '.' !in ext
    ensures ChooseDecoder(stem + "." + Text.ToUpper(ext)) == ChooseDecoder(stem + "." + ext)
  {
    ExtensionOfJoined(stem, ext);
    Text.LowerKeepsNonLetter(Text.ToUpper(ext), '.');
    Text.LowerKeepsNonLetter(ext, '.');
    Text.UpperKeepsNonLetter(ext, '.');
    ExtensionOfJoined(stem, Text.ToUpper(ext));
    Text.LowerOfUpper(ext);
  }

  // ---------------------------------------------------------------------------
  // Loading

  /** The canvas is in the page only when neither the loading screen nor the error screen is shown. */
  predicate CanvasMounted(v: Viewer) {
    !v.loading && v.error == ""
  }

  /**
   * `initScene`: fails without a canvas; otherwise creates the camera and
   * controls, then picks a decoder, failing on an unknown extension after the
   * camera and controls already exist. Returns the viewer and what was thrown.
   */
  function InitScene(v: Viewer, canvas: bool, filename: string): (r: (Viewer, Option<string>))
    ensures !canvas ==> r == (v, Some(NoCanvas))
    ensures canvas ==> r.0.camera == Some(InitialCamera) && r.0.orbit == Some(InitialOrbit)
    ensures canvas ==> (r.1.None? <==> ChooseDecoder(filename).Ok?)
    ensures canvas && r.1.None? ==> r.0.decoder == Some(ChooseDecoder(filename).value)
    ensures canvas && r.1.Some? ==> r.0.decoder == v.decoder && r.1 == Some(ChooseDecoder(filename).error)
    ensures r.0.(camera := v.camera, orbit := v.orbit, decoder := v.decoder) == v
  {
    if !canvas then (v, Some(NoCanvas))
    else
      var v1 := v.(camera := Some(InitialCamera), orbit := Some(InitialOrbit));
      match ChooseDecoder(filename)
      case Err(msg) => (v1, Some(msg))
      case Ok(d) => (v1.(decoder := Some(d)), None)
  }

  /**
   * The `catch` and `finally` of `fetchModel`: a 401 reports an expired session
   * and asks for sign-out and a move to `/login`; anything else reports a load
   * failure with the error's message, or a network hint when it has none.
   */
  function Fail(v: Viewer, status: Option<int>, message: string): (r: (Viewer, seq<Effect>))
    ensures !r.0.loading
    ensures status == Some(401) ==> r.0.error == SessionExpired && r.1 == [SignOut, NavigateTo("/login")]
    ensures status == Some(401) ==> r.0.errorDetails == v.errorDetails
    ensures status != Some(401) ==> r.0.error == LoadFailed && r.1 == []
    ensures status != Some(401) ==> r.0.errorDetails == (if message != "" then message else NetworkHint)
    ensures r.0.(error := v.error, errorDetails := v.errorDetails, loading := v.loading) == v
  {
    if status == Some(401) then (v.(error := SessionExpired, loading := false), [SignOut, NavigateTo("/login")])
    else (v.(error := LoadFailed, errorDetails := OrElse(Some(message), NetworkHint), loading := false), [])
  }

  /** The failure of the first fetch that failed, in the order metadata, file, views. */
  function FirstFailure(meta: Reply<ModelMeta>, file: Reply<()>, states: Reply<seq<SceneState>>): Option<HttpError> {
    if meta.Failed? then Some(meta.failure)
    else if file.Failed? then Some(file.failure)
    else if states.Failed? then Some(states.failure)
    else None
  }

  /**
   * `fetchModel` for `modelId`: metadata, file and saved views are fetched in
   * that order, each only after the previous succeeded, and the scene is set
   * up last. `canvas` says whether the canvas element exists at that moment.
   */
  function Load(v: Viewer, modelId: string, meta: Reply<ModelMeta>, file: Reply<()>,
                states: Reply<seq<SceneState>>, canvas: bool): (r: (Viewer, seq<Effect>))
    ensures modelId == "" ==> r == (v, [])
    ensures modelId != "" ==> !r.0.loading
    ensures r.1 != [] ==> r.1 == [SignOut, NavigateTo("/login")] && r.0.error == SessionExpired
    ensures modelId != "" && FirstFailure(meta, file, states).Some? ==>
              var e := FirstFailure(meta, file, states).value;
              && (e.status == Some(401) ==> r.0.error == SessionExpired && r.1 == [SignOut, NavigateTo("/login")])
              && (e.status != Some(401) ==>
                    && r.0.error == LoadFailed && r.1 == []
                    && r.0.errorDetails == (if e.message != "" then e.message else NetworkHint))
    ensures modelId != "" && r.0.error == "" ==>
              && meta.Done? && file.Done? && states.Done?
              && r.0.modelData == Some(meta.data) && r.0.savedStates == states.data
              && r.0.camera == Some(InitialCamera) && r.0.orbit == Some(InitialOrbit)
    ensures meta.Failed? ==> r.0.savedStates == v.savedStates && r.0.camera == v.camera
    ensures meta.Done? && (file.Failed? || states.Failed?) ==> r.0.savedStates == v.savedStates && r.0.camera == v.camera
    ensures modelId != "" && meta.Done? && file.Done? && states.Done? ==> r.0.savedStates == states.data
    ensures r.0.activeState == v.activeState && r.0.showSaveModal == v.showSaveModal && r.0.meshInScene == v.meshInScene
  {
    if modelId == "" then (v, [])
    else
      var v0 := v.(loading := true, error := "");
      match meta
      case Failed(e) => Fail(v0, e.status, e.message)
      case Done(m) =>
        var v1 := v0.(modelData := Some(m));
        match file
        case Failed(e) => Fail(v1, e.status, e.message)
        case Done(_) =>
          match states
          case Failed(e) => Fail(v1, e.status, e.message)
          case Done(ss) =>
            var v2 := v1.(savedStates := ss);
            var (v3, thrown) := InitScene(v2, canvas, m.originalName);
            if thrown.Some? then Fail(v3, None, thrown.value)
            else (v3.(loading := false), [])
  }

  /** The three fetches of a load, in the order they are awaited. */
  function FetchOrder(modelId: string): seq<Request> {
    [ModelById(modelId), ModelFile(modelId), SceneStates(modelId)]
  }

  /**
   * The requests a load issues: a prefix of the fetch order that stops after
   * the first failed fetch.
   */
  function LoadRequests(modelId: string, meta: Reply<ModelMeta>, file: Reply<()>): (r: seq<Request>)
    ensures r <= FetchOrder(modelId)
    ensures modelId == "" <==> r == []
    ensures modelId != "" ==> (|r| == 1 <==> meta.Failed?)
    ensures modelId != "" ==> (|r| == 2 <==> meta.Done? && file.Failed?)
    ensures |r| == 3 <==> modelId != "" && meta.Done? && file.Done?
  {
    if modelId == "" then []
    else if meta.Failed? then [ModelById(modelId)]
    else if file.Failed? then [ModelById(modelId), ModelFile(modelId)]
    else [ModelById(modelId), ModelFile(modelId), SceneStates(modelId)]
  }

  /**
   * A load depends only on the replies to the requests it issues: after a
   * failed metadata fetch neither the file nor the views reply matters, and
   * after a failed file fetch the views reply does not.
   */
  lemma LoadFollowsRequests(v: Viewer, modelId: string, meta: Reply<ModelMeta>, f1: Reply<()>, f2: Reply<()>,
                            s1: Reply<seq<SceneState>>, s2: Reply<seq<SceneState>>, canvas: bool)
    ensures |LoadRequests(modelId, meta, f1)| <= 1 ==>
              Load(v, modelId, meta, f1, s1, canvas) == Load(v, modelId, meta, f2, s2, canvas)
    ensures |LoadRequests(modelId, meta, f1)| == 2 ==>
              Load(v, modelId, meta, f1, s1, canvas) == Load(v, modelId, meta, f1, s2, canvas)
  {
  }

  /** The viewer is ready: loading is over, no error is shown and the scene has a camera. */
  predicate Ready(v: Viewer) {
    !v.loading && v.error == "" && v.camera.Some? && v.orbit.Some?
  }

  /**
   * With the canvas present, a load ends ready exactly when all three fetches
   * succeed and the file's extension has a decoder; there is no partial ready.
   */
  lemma ReadyIffAllSucceed(v: Viewer, modelId: string, meta: Reply<ModelMeta>, file: Reply<()>,
                           states: Reply<seq<SceneState>>)
    requires modelId != ""
    ensures var r := Load(v, modelId, meta, file, states, true).0;
            Ready(r) <==> meta.Done? && file.Done? && states.Done? && ChooseDecoder(meta.data.originalName).Ok?
    ensures var r := Load(v, modelId, meta, file, states, true).0;
            !r.loading && (r.error == "" <==> Ready(r))
  {
  }

  /** A successful load shows the fetched views, newest first as the server sent them, and the camera at its start. */
  lemma ReadyLoadContents(v: Viewer, modelId: string, m: ModelMeta, ss: seq<SceneState>)
    requires modelId != "" && ChooseDecoder(m.originalName).Ok?
    ensures var r := Load(v, modelId, Done(m), Done(()), Done(ss), true).0;
            && r.savedStates == ss && r.modelData == Some(m)
            && r.camera == Some(InitialCamera) && r.orbit == Some(InitialOrbit)
            && r.decoder == Some(ChooseDecoder(m.originalName).value)
  {
  }

  /** A 401 on the metadata fetch expires the session, whatever the other fetches would have done. */
  lemma MetadataUnauthorizedExpires(v: Viewer, modelId: string, e: HttpError, file: Reply<()>,
                                    states: Reply<seq<SceneState>>, canvas: bool)
    requires modelId != "" && e.status == Some(401)
    ensures var (r, effects) := Load(v, modelId, Failed(e), file, states, canvas);
            && r.error == SessionExpired && !r.loading && !Ready(r)
            && effects == [SignOut, NavigateTo("/login")]
            && r.camera == v.camera
    ensures LoadRequests(modelId, Failed(e), file) == [ModelById(modelId)]
  {
  }

  /** An unsupported file fails the load with the decoder's message, and no decoder is chosen. */
  lemma UnsupportedFormatFails(v: Viewer, modelId: string, m: ModelMeta, ss: seq<SceneState>)
    requires modelId != "" && Extension(m.originalName) !in {"glb", "gltf", "obj"}
    ensures var (r, effects) := Load(v, modelId, Done(m), Done(()), Done(ss), true);
            && r.error == LoadFailed
            && r.errorDetails == "Unsupported file format: " + Extension(m.originalName)
            && !r.loading && effects == [] && r.decoder == v.decoder
  {
  }

  /** Performs the viewer's effects on the auth session; returns the session and where the app navigated. */
  function RunEffects(s: AuthContext.Session, effects: seq<Effect>, at: string): (AuthContext.Session, string)
    decreases |effects|
  {
    if |effects| == 0 then (s, at)
    else match effects[0]
      case SignOut => RunEffects(AuthContext.Logout(s), effects[1..], at)
      case NavigateTo(p) => RunEffects(s, effects[1..], p)
  }

  /** An expired session on load clears the stored credentials and lands on the login page. */
  lemma ExpiryClearsCredentials(v: Viewer, modelId: string, e: HttpError, file: Reply<()>,
                                states: Reply<seq<SceneState>>, canvas: bool, s: AuthContext.Session, at: string)
    requires modelId != "" && e.status == Some(401)
    ensures var effects := Load(v, modelId, Failed(e), file, states, canvas).1;
            var (s', to) := RunEffects(s, effects, at);
            && Storage.TokenKey !in s'.store && Storage.UserKey !in s'.store
            && !AuthContext.SignedIn(s'.currentUser) && to == "/login"
  {
    var effects := Load(v, modelId, Failed(e), file, states, canvas).1;
    assert effects == [SignOut, NavigateTo("/login")];
    assert effects[1..][1..] == [];
  }

  /**
   * The load as the component runs it: `initScene` is called while `loading`
   * is still true, when the loading screen stands in place of the canvas.
   */
  function LoadAsRendered(v: Viewer, modelId: string, meta: Reply<ModelMeta>, file: Reply<()>,
                          states: Reply<seq<SceneState>>): (Viewer, seq<Effect>)
  {
    Load(v, modelId, meta, file, states, CanvasMounted(v.(loading := true)))
  }

  /** As rendered, even a load whose fetches all succeed ends on the error screen, without a camera. */
  lemma AsRenderedLoadNeverReady(modelId: string, m: ModelMeta, ss: seq<SceneState>)
    requires modelId != ""
    ensures var r := LoadAsRendered(Initial, modelId, Done(m), Done(()), Done(ss)).0;
            && r.error == LoadFailed && r.errorDetails == NoCanvas
            && r.camera.None? && !Ready(r)
  {
  }

  /** A decode finishing: on success the mesh joins the scene; on failure the decode error is shown. */
  function DecodeFinished(v: Viewer, ok: bool): (r: Viewer)
    ensures ok ==> r.meshInScene && r.error == v.error
    ensures !ok ==> r.error == DecodeFailed && r.errorDetails == DecodeHint && r.meshInScene == v.meshInScene
    ensures ok ==> r.(meshInScene := v.meshInScene) == v
    ensures !ok ==> r.(error := v.error, errorDetails := v.errorDetails) == v
  {
    if ok then v.(meshInScene := true) else v.(error := DecodeFailed, errorDetails := DecodeHint)
  }

  // ---------------------------------------------------------------------------
  // Saving and applying viewpoints

  /** The state `handleSave` sends: the name, the camera position, the orbit target (as `rotation`) and the zoom. */
  function SnapshotFields(name: string, c: Camera, o: Orbit): map<string, Field> {
    map[
      "name" := Str(name),
      "cameraPosition" := Triple(c.position.x, c.position.y, c.position.z),
      "rotation" := Triple(o.target.x, o.target.y, o.target.z),
      "zoom" := Number(c.zoom)]
  }

  /** `handleSaveState`: the "Save View" buttons open the dialog. */
  function OpenSaveDialog(v: Viewer): Viewer {
    v.(showSaveModal := true)
  }

  /** The dialog's `onCancel`: closes it. */
  function CloseSaveDialog(v: Viewer): Viewer {
    v.(showSaveModal := false)
  }

  /**
   * `handleSave`: without camera or controls nothing happens and nothing is
   * sent. Otherwise the snapshot is posted; a saved state is put in front of
   * the list and the dialog closes, while a failure leaves list and camera as
   * they were and reports the server's message or a retry hint.
   */
  function Save(v: Viewer, modelId: string, name: string, reply: Reply<SceneState>): (r: (Viewer, Option<Request>))
    ensures v.camera.None? || v.orbit.None? ==> r == (v, None)
    ensures v.camera.Some? && v.orbit.Some? ==>
              && r.1.Some? && r.1.value.verb == Post && r.1.value.path == "/scene"
              && r.1.value.body == Json(SaveSceneBody(modelId, SnapshotFields(name, v.camera.value, v.orbit.value)))
    ensures v.camera.Some? && v.orbit.Some? && reply.Done? ==>
              && r.0.savedStates == [reply.data] + v.savedStates
              && |r.0.savedStates| == |v.savedStates| + 1
              && r.0.savedStates[1..] == v.savedStates
              && !r.0.showSaveModal
    ensures v.camera.Some? && v.orbit.Some? && reply.Failed? ==>
              && r.0.error == SaveFailed
              && r.0.errorDetails == OrElse(reply.failure.serverMessage, SaveHint)
              && r.0.showSaveModal == v.showSaveModal
    ensures r.0.camera == v.camera && r.0.orbit == v.orbit && r.0.activeState == v.activeState
    ensures reply.Failed? ==> r.0.savedStates == v.savedStates
    ensures reply.Done? ==> r.0.(savedStates := v.savedStates, showSaveModal := v.showSaveModal) == v
    ensures reply.Failed? ==> r.0.(error := v.error, errorDetails := v.errorDetails) == v
  {
    if v.camera.None? || v.orbit.None? then (v, None)
    else
      var req := SaveSceneState(modelId, SnapshotFields(name, v.camera.value, v.orbit.value));
      match reply
      case Done(saved) => (v.(savedStates := [saved] + v.savedStates, showSaveModal := false), Some(req))
      case Failed(e) => (v.(error := SaveFailed, errorDetails := OrElse(e.serverMessage, SaveHint)), Some(req))
  }

  /** The body a save posts carries the model id and exactly the camera it captured. */
  lemma SaveCapturesCamera(v: Viewer, modelId: string, name: string, reply: Reply<SceneState>)
    requires v.camera.Some? && v.orbit.Some?
    ensures var body := Save(v, modelId, name, reply).1.value.body.fields;
            var c, o := v.camera.value, v.orbit.value;
            && body.Keys == {"modelId", "name", "cameraPosition", "rotation", "zoom"}
            && body["modelId"] == Str(modelId) && body["name"] == Str(name)
            && body["cameraPosition"] == Triple(c.position.x, c.position.y, c.position.z)
            && body["rotation"] == Triple(o.target.x, o.target.y, o.target.z)
            && body["zoom"] == Number(c.zoom)
  {
  }

  /**
   * The viewer's answer to a dialog callback: `onSave` is `handleSave`,
   * `onCancel` closes the dialog without sending anything, and a submit that
   * fires no callback changes nothing.
   */
  function Respond(v: Viewer, cb: SaveModal.Callback, modelId: string, reply: Reply<SceneState>): (r: (Viewer, Option<Request>))
    ensures cb.OnSave? ==> r == Save(v, modelId, cb.name, reply)
    ensures cb.OnCancel? ==> !r.0.showSaveModal && r.1.None? && r.0.(showSaveModal := v.showSaveModal) == v
    ensures cb.NoCallback? ==> r == (v, None)
  {
    match cb
    case OnSave(name) => Save(v, modelId, name, reply)
    case OnCancel => (CloseSaveDialog(v), None)
    case NoCallback => (v, None)
  }

  /** The dialog's submit wired to `handleSave`: only a name that is not blank is saved. */
  function SubmitDialog(v: Viewer, m: SaveModal.Modal, modelId: string, reply: Reply<SceneState>): (r: (Viewer, Option<Request>))
    ensures Text.Trim(m.name) == "" ==> r == (v, None)
    ensures Text.Trim(m.name) != "" ==> r == Save(v, modelId, m.name, reply)
  {
    Respond(v, SaveModal.Submit(m), modelId, reply)
  }

  /** Opening the dialog, typing anything and cancelling closes the dialog and sends nothing. */
  lemma CancelClosesDialog(v: Viewer, typed: string, modelId: string, reply: Reply<SceneState>)
    ensures var m := SaveModal.Edit(SaveModal.Opened, typed);
            Respond(OpenSaveDialog(v), SaveModal.Cancel(m), modelId, reply) == (v.(showSaveModal := false), None)
  {
  }

  /**
   * Opening the dialog, typing a name that is not blank and submitting posts
   * the snapshot; once the backend stores it, the view heads the list and the
   * dialog is closed.
   */
  lemma TypedNameSaves(v: Viewer, typed: string, modelId: string, saved: SceneState)
    requires Text.Trim(typed) != "" && v.camera.Some? && v.orbit.Some?
    ensures var m := SaveModal.Edit(SaveModal.Opened, typed);
            var (r, sent) := SubmitDialog(OpenSaveDialog(v), m, modelId, Done(saved));
            && sent.Some? && sent.value.path == "/scene"
            && r.savedStates == [saved] + v.savedStates && !r.showSaveModal
  {
  }

  /**
   * `applyState`: without camera or controls nothing happens. Otherwise the
   * camera moves to the state's position and zoom, the controls to its
   * target, and the state becomes the active one.
   */
  function Apply(v: Viewer, s: SceneState): (r: Viewer)
    ensures v.camera.None? || v.orbit.None? ==> r == v
    ensures v.camera.Some? && v.orbit.Some? ==>
              && r.camera == Some(Camera(s.cameraPosition, s.zoom))
              && r.orbit == Some(Orbit(s.rotation))
              && r.activeState == s.id
    ensures r.(camera := v.camera, orbit := v.orbit, activeState := v.activeState) == v
  {
    if v.camera.None? || v.orbit.None? then v
    else v.(camera := Some(Camera(s.cameraPosition, s.zoom)), orbit := Some(Orbit(s.rotation)), activeState := s.id)
  }

  /**
   * The state the backend stores for a posted body and sends back: the body's
   * name, camera position, rotation and zoom, under the id the backend
   * assigns. Nothing is stored from a body that lacks one of them.
   */
  function Stored(id: Option<string>, body: map<string, Field>): (r: Option<SceneState>)
    ensures r.Some? <==>
              && "name" in body && body["name"].Str?
              && "cameraPosition" in body && body["cameraPosition"].Triple?
              && "rotation" in body && body["rotation"].Triple?
              && "zoom" in body && body["zoom"].Number?
    ensures r.Some? ==>
              && r.value.id == id
              && body["name"] == Str(r.value.name)
              && body["cameraPosition"] == Triple(r.value.cameraPosition.x, r.value.cameraPosition.y, r.value.cameraPosition.z)
              && body["rotation"] == Triple(r.value.rotation.x, r.value.rotation.y, r.value.rotation.z)
              && body["zoom"] == Number(r.value.zoom)
  {
    if && "name" in body && body["name"].Str?
       && "cameraPosition" in body && body["cameraPosition"].Triple?
       && "rotation" in body && body["rotation"].Triple?
       && "zoom" in body && body["zoom"].Number?
    then
      var p, t := body["cameraPosition"], body["rotation"];
      Some(SceneState(id, body["name"].str, Vec3(p.x, p.y, p.z), Vec3(t.x, t.y, t.z), body["zoom"].number))
    else None
  }

  /**
   * Saving a view and applying the state the backend stored from the posted
   * body puts the camera and controls back exactly where they were when the
   * view was captured.
   */
  lemma CaptureThenApply(v: Viewer, modelId: string, name: string, id: Option<string>, saved: SceneState)
    requires v.camera.Some? && v.orbit.Some?
    requires Stored(id, Save(v, modelId, name, Done(saved)).1.value.body.fields) == Some(saved)
    ensures saved.name == name && saved.id == id
    ensures var after := Save(v, modelId, name, Done(saved)).0;
            var applied := Apply(after, after.savedStates[0]);
            && applied.camera == v.camera && applied.orbit == v.orbit
            && applied.activeState == id
  {
    var body := SaveSceneBody(modelId, SnapshotFields(name, v.camera.value, v.orbit.value));
    assert body["cameraPosition"] == Triple(v.camera.value.position.x, v.camera.value.position.y, v.camera.value.position.z);
    assert body["rotation"] == Triple(v.orbit.value.target.x, v.orbit.value.target.y, v.orbit.value.target.z);
    assert body["zoom"] == Number(v.camera.value.zoom);
  }

  /** Whatever camera and name are captured, the posted body is one the backend can store. */
  lemma SnapshotIsStorable(modelId: string, name: string, c: Camera, o: Orbit, id: Option<string>)
    ensures var saved := Stored(id, SaveSceneBody(modelId, SnapshotFields(name, c, o)));
            && saved.Some?
            && saved.value == SceneState(id, name, c.position, o.target, c.zoom)
  {
    var body := SaveSceneBody(modelId, SnapshotFields(name, c, o));
    assert body["cameraPosition"] == Triple(c.position.x, c.position.y, c.position.z);
    assert body["rotation"] == Triple(o.target.x, o.target.y, o.target.z);
  }

  /** The highlighted view, if any, is one of the listed views. */
  predicate ActiveListed(v: Viewer) {
    v.activeState.None? || exists i :: 0 <= i < |v.savedStates| && v.savedStates[i].id == v.activeState
  }

  /** Applying a listed view highlights a listed view. */
  lemma ApplyKeepsActiveListed(v: Viewer, i: int)
    requires 0 <= i < |v.savedStates| && ActiveListed(v)
    ensures ActiveListed(Apply(v, v.savedStates[i]))
  {
  }

  /** Saving only adds to the list, so a listed active view stays listed. */
  lemma SaveKeepsActiveListed(v: Viewer, modelId: string, name: string, reply: Reply<SceneState>)
    requires ActiveListed(v)
    ensures ActiveListed(Save(v, modelId, name, reply).0)
  {
    var r := Save(v, modelId, name, reply).0;
    if v.activeState.Some? && v.camera.Some? && v.orbit.Some? && reply.Done? {
      var i :| 0 <= i < |v.savedStates| && v.savedStates[i].id == v.activeState;
      assert r.savedStates[i + 1] == v.savedStates[i];
    }
  }

  /**
   * A load replaces the list but keeps the highlighted id, so after loading a
   * model whose views differ the highlight can name a view that is not listed.
   */
  lemma LoadMayOrphanActive(s: SceneState, modelId: string, m: ModelMeta)
    requires s.id.Some? && modelId != "" && ChooseDecoder(m.originalName).Ok?
    ensures var v := Initial.(savedStates := [s], activeState := s.id);
            && ActiveListed(v)
            && !ActiveListed(Load(v, modelId, Done(m), Done(()), Done([]), true).0)
  {
    var v := Initial.(savedStates := [s], activeState := s.id);
    assert v.savedStates[0].id == v.activeState;
  }

  /**
   * The panel's buttons acting on the viewer's camera and controls, with the
   * panel handed `controlsRef.current` and `cameraRef.current`: the wiring the
   * panel expects, not the ref objects the viewer passes it
   * (`Controls.PressAsWritten` models those).
   */
  function PressControl(v: Viewer, b: Controls.Button): (r: Viewer)
    ensures v.camera.None? || v.orbit.None? ==> r == v
    ensures v.camera.Some? && v.orbit.Some? && b == Controls.ResetView ==>
              r.camera == Some(InitialCamera) && r.orbit == Some(InitialOrbit)
    ensures v.camera.Some? && v.orbit.Some? && b == Controls.ZoomIn ==>
              r.camera == Some(Controls.ZoomInCamera(v.camera.value)) && r.orbit == v.orbit
    ensures v.camera.Some? && v.orbit.Some? && b == Controls.ZoomOut ==>
              && r.camera == Some(Controls.ZoomOutCamera(v.camera.value))
              && r.camera.value.position == v.camera.value.position
              && r.camera.value.zoom >= Controls.Floor && r.orbit == v.orbit
    ensures r.savedStates == v.savedStates && r.activeState == v.activeState
    ensures r.(camera := v.camera, orbit := v.orbit) == v
  {
    match Controls.Press(v.orbit, v.camera, b)
    case Applied(rig) => v.(camera := Some(rig.camera), orbit := Some(rig.orbit))
    case _ => v
  }
}

=== FILE: routes.dfy ===
/** `App.js`: the `PrivateRoute` guard and the route table. */
module Routes {
  import Text
  import opened AuthContext

  datatype Page = LoginPage | RegisterPage | Dashboard | Viewer(modelId: string)

  /** What a route renders: the loading placeholder, a page, or a `<Navigate>`. */
  datatype Render = Placeholder | Show(page: Page) | Redirect(to: string, replace: bool)

  /** A route's element: a page, a page wrapped in `PrivateRoute`, or a redirect. */
  datatype Element = Open(page: Page) | Private(page: Page) | Navigate(to: string, replace: bool)

  /**
   * `PrivateRoute`: the placeholder while the session is loading, the wrapped
   * page for a signed-in user, and otherwise a redirect to `/login`.
   */
  function PrivateRoute(loading: bool, user: Principal, page: Page): (r: Render)
    ensures loading ==> r == Placeholder
    ensures !loading ==> (r == Show(page) <==> SignedIn(user))
    ensures !loading && !SignedIn(user) ==> r == Redirect("/login", false)
  {
    if loading then Placeholder
    else if SignedIn(user) then Show(page)
    else Redirect("/login", false)
  }

  /** Drops the empty pieces trailing slashes leave behind. */
  function DropTrailingEmpty(segs: seq<string>): (r: seq<string>)
    ensures |r| <= |segs| && r == segs[..|r|]
    ensures r == [] || r[|r| - 1] != ""
    ensures forall i :: |r| <= i < |segs| ==> segs[i] == ""
  {
    if |segs| > 0 && segs[|segs| - 1] == "" then DropTrailingEmpty(segs[..|segs| - 1]) else segs
  }

  /**
   * The path's segments as the router matches them: the path must start with
   * `/`, and any number of trailing slashes is ignored.
   */
  function Segments(path: string): seq<string> {
    var parts := Text.Split(path, '/');
    if parts[0] != "" then [] else DropTrailingEmpty(parts[1..])
  }

  /** A static segment matches regardless of the case of its ASCII letters. */
  predicate Literal(seg: string, word: string) {
    Text.ToLower(seg) == word
  }

  /** The route table: `/login`, `/register`, `/dashboard`, `/viewer/:modelId`, and `*` for the rest. */
  function RouteFor(path: string): (e: Element)
    ensures e.Private? ==> e.page.Dashboard? || e.page.Viewer?
    ensures e.Open? ==> e.page == LoginPage || e.page == RegisterPage
    ensures e.Navigate? ==> e == Navigate("/dashboard", true)
  {
    var segs := Segments(path);
    if |segs| == 1 && Literal(segs[0], "login") then Open(LoginPage)
    else if |segs| == 1 && Literal(segs[0], "register") then Open(RegisterPage)
    else if |segs| == 1 && Literal(segs[0], "dashboard") then Private(Dashboard)
    else if |segs| == 2 && Literal(segs[0], "viewer") then Private(Viewer(segs[1]))
    else Navigate("/dashboard", true)
  }

  /** What the app renders at `path` for the session in the auth context. */
  function Route(path: string, s: Session): (r: Render)
    ensures RouteFor(path).Open? ==> r == Show(RouteFor(path).page)
    ensures r.Placeholder? ==> s.loading && RouteFor(path).Private?
    ensures RouteFor(path).Private? && s.loading ==> r == Placeholder
    ensures RouteFor(path).Private? && !s.loading && SignedIn(s.currentUser) ==> r == Show(RouteFor(path).page)
    ensures RouteFor(path).Private? && !s.loading && !SignedIn(s.currentUser) ==> r == Redirect("/login", false)
    ensures r.Show? ==> !RouteFor(path).Navigate? && r.page == RouteFor(path).page
    ensures r.Show? && (r.page.Dashboard? || r.page.Viewer?) ==> !s.loading && SignedIn(s.currentUser)
    ensures r.Redirect? ==> r == Redirect("/login", false) || r == Redirect("/dashboard", true)
  {
    match RouteFor(path)
    case Open(p) => Show(p)
    case Private(p) => PrivateRoute(s.loading, s.currentUser, p)
    case Navigate(to, replace) => Redirect(to, replace)
  }

  /** The dashboard and the viewer are reached only by a signed-in user once loading is over. */
  lemma GuardedPagesNeedUser(path: string, s: Session)
    requires Route(path, s).Show? && (Route(path, s).page.Dashboard? || Route(path, s).page.Viewer?)
    ensures !s.loading && SignedIn(s.currentUser)
  {
  }

  /** The segments of `/word` are `word` alone when it is not empty and holds no slash. */
  lemma OneSegment(word: string)
    requires word != "" && '/' !in word
    ensures Segments("/" + word) == [word]
  {
    assert "/" + word == "" + ['/'] + word;
    Text.SplitAfterPiece("", word, '/');
  }

  /** A lower-case word matches itself. */
  lemma LiteralSelf(word: string)
    requires forall i :: 0 <= i < |word| ==> !('A' <= word[i] <= 'Z')
    ensures Literal(word, word)
  {
  }

  /** The login and register pages are never guarded. */
  lemma AuthPagesOpen(s: Session)
    ensures Route("/login", s) == Show(LoginPage)
    ensures Route("/register", s) == Show(RegisterPage)
  {
    OneSegment("login");
    LiteralSelf("login");
    OneSegment("register");
    LiteralSelf("register");
    assert !Literal("register", "login");
  }

  function ViewerPath(modelId: string): string {
    "/viewer/" + modelId
  }

  /** A link to a model's viewer reaches the viewer for that same model, behind the guard. */
  lemma ViewerLinkRoundTrip(modelId: string)
    requires modelId != "" && '/' !in modelId
    ensures RouteFor(ViewerPath(modelId)) == Private(Viewer(modelId))
  {
    assert ViewerPath(modelId) == "" + ['/'] + ("viewer" + ['/'] + modelId);
    Text.SplitAfterPiece("", "viewer" + ['/'] + modelId, '/');
    Text.SplitAfterPiece("viewer", modelId, '/');
    assert Segments(ViewerPath(modelId)) == ["viewer", modelId];
    LiteralSelf("viewer");
  }

  /** A path no route names is sent to the dashboard, replacing the history entry, whatever the session. */
  lemma UnmatchedGoesToDashboard(path: string, s: Session)
    requires RouteFor(path).Navigate?
    ensures Route(path, s) == Redirect("/dashboard", true)
  {
  }

  /** The bare root names no route. */
  lemma RootUnmatched()
    ensures RouteFor("/") == Navigate("/dashboard", true)
  {
    assert "/" == "" + ['/'] + "";
    Text.SplitAfterPiece("", "", '/');
    assert Segments("/") == [];
  }

  /** The dashboard sits behind the guard. */
  lemma DashboardGuarded()
    ensures RouteFor("/dashboard") == Private(Dashboard)
  {
    OneSegment("dashboard");
    LiteralSelf("dashboard");
    assert !Literal("dashboard", "login") && !Literal("dashboard", "register");
  }

  /** Signed out, an unknown path ends at the login page after two redirects. */
  lemma UnmatchedSignedOutEndsAtLogin(s: Session)
    requires !s.loading && !SignedIn(s.currentUser)
    ensures Route("/", s) == Redirect("/dashboard", true)
    ensures Route("/dashboard", s) == Redirect("/login", false)
  {
    RootUnmatched();
    DashboardGuarded();
  }
}

=== FILE: save_modal.dfy ===
/** `SaveStateModal.jsx`: the dialog that asks for a view's name. */
module SaveModal {
  import Text

  /** The dialog's only state: the text typed into the name field. */
  datatype Modal = Modal(name: string)

  /** Which of the parent's callbacks the dialog invokes. */
  datatype Callback = OnSave(name: string) | OnCancel | NoCallback

  /** The dialog opens with an empty name. */
  const Opened := Modal("")

  /** Typing replaces the name with the field's value. */
  function Edit(m: Modal, value: string): (r: Modal)
    ensures r.name == value
  {
    Modal(value)
  }

  /** Submitting saves under the name as typed, but only when it is not blank after trimming. */
  function Submit(m: Modal): (r: Callback)
    ensures r.OnSave? <==> Text.Trim(m.name) != ""
    ensures r.OnSave? ==> r.name == m.name
    ensures !r.OnCancel?
  {
    if Text.Trim(m.name) != "" then OnSave(m.name) else NoCallback
  }

  /** The cancel button invokes the parent's cancel callback, whatever was typed, and never saves. */
  function Cancel(m: Modal): (r: Callback)
    ensures r == OnCancel && !r.OnSave?
  {
    OnCancel
  }

  /** A blank name, empty or whitespace only, never reaches the save callback. */
  lemma BlankNeverSaves(name: string)
    requires forall k :: 0 <= k < |name| ==> Text.IsWhitespace(name[k])
    ensures Submit(Modal(name)) == NoCallback
  {
    Text.TrimEmptyIff(name);
  }

  /** A name with any visible character is saved exactly as typed, surrounding spaces included. */
  lemma VisibleNameSaves(name: string, k: int)
    requires 0 <= k < |name| && !Text.IsWhitespace(name[k])
    ensures Submit(Modal(name)) == OnSave(name)
  {
    Text.TrimEmptyIff(name);
  }

  /** Submitting the freshly opened dialog does nothing. */
  lemma OpenedSubmitsNothing()
    ensures Submit(Opened) == NoCallback
  {
  }
}

=== FILE: storage.dfy ===
/** The browser's `localStorage`, as a map from keys to string values. */
module Storage {
  import opened Js

  type Store = map<string, string>

  const TokenKey := "token"
  const UserKey := "user"
  const RoleKey := "role"

  /** `getItem(key)`: the stored string, or null when the key is absent. */
  function GetItem(st: Store, key: string): Option<string> {
    if key in st then Some(st[key]) else None
  }

  /** `setItem(key, value)` on a value that may be undefined: the value is converted to a string first. */
  function SetItem(st: Store, key: string, value: Option<string>): Store {
    st[key := if value.Some? then value.value else "undefined"]
  }

  /** `removeItem(key)`; absent keys are ignored. */
  function RemoveItem(st: Store, key: string): Store {
    st - {key}
  }

  /** `setItem` on a missing value stores the text "undefined", which is a truthy string. */
  lemma SetUndefinedIsTruthy(st: Store, key: string)
    ensures GetItem(SetItem(st, key, None), key) == Some("undefined")
    ensures Truthy(GetItem(SetItem(st, key, None), key))
  {
  }
}

=== FILE: text.dfy ===
/** The string operations the client relies on: `split(sep)`, `pop()`, `toLowerCase()` and `trim()`. */
module Text {

  /** `s.split(d)` for a one-character separator: the maximal runs between separators, in order. */
  function Split(s: string, d: char): (parts: seq<string>)
    ensures |parts| >= 1
    ensures |parts| == 1 <==> d !in s
    ensures d !in s ==> parts == [s]
    ensures forall i :: 0 <= i < |parts| ==> d !in parts[i]
    decreases |s|
  {
    if |s| == 0 then [""]
    else
      var rest := Split(s[1..], d);
      assert s == [s[0]] + s[1..];
      if s[0] == d then [""] + rest
      else [[s[0]] + rest[0]] + rest[1..]
  }

  /** `parts.join(d)`: the inverse of Split. */
  function Join(parts: seq<string>, d: char): string
    requires |parts| >= 1
  {
    if |parts| == 1 then parts[0] else parts[0] + [d] + Join(parts[1..], d)
  }

  /** `parts.pop()` on a non-empty array, read for its value. */
  function Last<T>(parts: seq<T>): T
    requires |parts| >= 1
  {
    parts[|parts| - 1]
  }

  /** Joining the pieces of a split with the same separator gives back the string. */
  lemma {:induction false} JoinSplit(s: string, d: char)
    ensures Join(Split(s, d), d) == s
    decreases |s|
  {
    if |s| > 0 {
      var rest := Split(s[1..], d);
      JoinSplit(s[1..], d);
      assert s == [s[0]] + s[1..];
      if s[0] != d && |rest| > 1 {
        var parts := Split(s, d);
        assert parts[1..] == rest[1..];
        assert Join(rest, d) == rest[0] + [d] + Join(rest[1..], d);
      }
    }
  }

  /** A separator-free prefix followed by a separator becomes the first piece. */
  lemma {:induction false} SplitAfterPiece(a: string, t: string, d: char)
    requires d !in a
    ensures Split(a + [d] + t, d) == [a] + Split(t, d)
    decreases |a|
  {
    if |a| == 0 {
      assert a + [d] + t == [d] + t;
      assert ([d] + t)[1..] == t;
    } else {
      SplitAfterPiece(a[1..], t, d);
      assert (a + [d] + t)[1..] == a[1..] + [d] + t;
      assert [a[0]] + a[1..] == a;
    }
  }

  /** Splitting a join of separator-free pieces gives back the pieces. */
  lemma {:induction false} SplitJoin(parts: seq<string>, d: char)
    requires |parts| >= 1
    requires forall i :: 0 <= i < |parts| ==> d !in parts[i]
    ensures Split(Join(parts, d), d) == parts
    decreases |parts|
  {
    if |parts| > 1 {
      SplitJoin(parts[1..], d);
      SplitAfterPiece(parts[0], Join(parts[1..], d), d);
      assert [parts[0]] + parts[1..] == parts;
    }
  }

  /** Whatever precedes the last separator has no effect on the last piece. */
  lemma {:induction false} LastPieceAfterSeparator(a: string, t: string, d: char)
    ensures Last(Split(a + [d] + t, d)) == Last(Split(t, d))
    decreases |a|
  {
    if |a| == 0 {
      assert a + [d] + t == [d] + t;
      assert ([d] + t)[1..] == t;
    } else {
      LastPieceAfterSeparator(a[1..], t, d);
      assert (a + [d] + t)[1..] == a[1..] + [d] + t;
      assert d in a[1..] + [d] + t;
    }
  }

  /** The last piece is the text after the last separator, or the whole string when there is none. */
  lemma LastPieceIsSuffix(s: string, d: char, j: int)
    requires 0 <= j < |s| && s[j] == d && d !in s[j + 1..]
    ensures Last(Split(s, d)) == s[j + 1..]
  {
    assert s == s[..j] + [d] + s[j + 1..];
    LastPieceAfterSeparator(s[..j], s[j + 1..], d);
  }

  /** `toLowerCase()` on one character, for the ASCII letters. */
  function LowerChar(c: char): char {
    if 'A' <= c <= 'Z' then (c as int + 32) as char else c
  }

  /** `toUpperCase()` on one character, for the ASCII letters. */
  function UpperChar(c: char): char {
    if 'a' <= c <= 'z' then (c as int - 32) as char else c
  }

  function ToLower(s: string): (r: string)
    ensures |r| == |s|
    ensures forall i :: 0 <= i < |s| ==> r[i] == LowerChar(s[i])
  {
    seq(|s|, i requires 0 <= i < |s| => LowerChar(s[i]))
  }

  function ToUpper(s: string): (r: string)
    ensures |r| == |s|
    ensures forall i :: 0 <= i < |s| ==> r[i] == UpperChar(s[i])
  {
    seq(|s|, i requires 0 <= i < |s| => UpperChar(s[i]))
  }

  /** Lower-casing forgets the case a string was written in. */
  lemma LowerOfUpper(s: string)
    ensures ToLower(ToUpper(s)) == ToLower(s)
  {
  }

  /** Upper-casing neither adds nor removes a given non-letter character. */
  lemma UpperKeepsNonLetter(s: string, c: char)
    requires !('A' <= c <= 'Z') && !('a' <= c <= 'z')
    ensures (c in ToUpper(s)) <==> (c in s)
  {
    if c in s {
      var i :| 0 <= i < |s| && s[i] == c;
      assert ToUpper(s)[i] == c;
    }
    if c in ToUpper(s) {
      var i :| 0 <= i < |s| && ToUpper(s)[i] == c;
      assert s[i] == c;
    }
  }

  /** Lower-casing neither adds nor removes a given non-letter character. */
  lemma LowerKeepsNonLetter(s: string, c: char)
    requires !('A' <= c <= 'Z') && !('a' <= c <= 'z')
    ensures (c in ToLower(s)) <==> (c in s)
  {
    if c in s {
      var i :| 0 <= i < |s| && s[i] == c;
      assert ToLower(s)[i] == c;
    }
    if c in ToLower(s) {
      var i :| 0 <= i < |s| && ToLower(s)[i] == c;
      assert s[i] == c;
    }
  }

  /**
   * The characters `String.prototype.trim` strips: the ECMAScript WhiteSpace
   * set (tab, vertical tab, form feed, space, no-break space, byte order mark
   * and the Unicode space separators) and the LineTerminator set.
   */
  predicate IsWhitespace(c: char) {
    || c == '\t' || c == '\U{000B}' || c == '\U{000C}' || c == ' '
    || c == '\U{00A0}' || c == '\U{FEFF}'
    || c == '\U{1680}' || ('\U{2000}' <= c <= '\U{200A}') || c == '\U{202F}'
    || c == '\U{205F}' || c == '\U{3000}'
    || c == '\n' || c == '\r' || c == '\U{2028}' || c == '\U{2029}'
  }

  /** Drops leading whitespace: the result is the suffix starting at the first non-whitespace character. */
  function TrimStart(s: string): (r: string)
    ensures |r| <= |s| && r == s[|s| - |r|..]
    ensures forall i :: 0 <= i < |s| - |r| ==> IsWhitespace(s[i])
    ensures r == [] || !IsWhitespace(r[0])
    decreases |s|
  {
    if |s| > 0 && IsWhitespace(s[0]) then TrimStart(s[1..]) else s
  }

  /** Drops trailing whitespace: the result is the prefix ending at the last non-whitespace character. */
  function TrimEnd(s: string): (r: string)
    ensures |r| <= |s| && r == s[..|r|]
    ensures forall i :: |r| <= i < |s| ==> IsWhitespace(s[i])
    ensures r == [] || !IsWhitespace(r[|r| - 1])
    decreases |s|
  {
    if |s| > 0 && IsWhitespace(s[|s| - 1]) then TrimEnd(s[..|s| - 1]) else s
  }

  /** `s.trim()`. */
  function Trim(s: string): string {
    TrimEnd(TrimStart(s))
  }

  /** `s[i..j]` has only whitespace outside it and visible characters at both of its ends. */
  predicate Core(s: string, i: int, j: int) {
    && 0 <= i <= j <= |s|
    && (forall k :: 0 <= k < i ==> IsWhitespace(s[k]))
    && (forall k :: j <= k < |s| ==> IsWhitespace(s[k]))
    && (i < j ==> !IsWhitespace(s[i]) && !IsWhitespace(s[j - 1]))
  }

  /** `Trim(s)` is `s[i..j]`, and that slice is the core of `s`. */
  predicate TrimSlice(s: string, i: int, j: int) {
    Core(s, i, j) && Trim(s) == s[i..j]
  }

  /**
   * A prefix `r` of the suffix `s[i..]`, with whitespace before `i` and after
   * `r`, and visible characters at the ends of `r`, is the core slice of `s`.
   */
  lemma CoreOfParts(s: string, i: int, r: string)
    requires 0 <= i <= |s| && |r| <= |s| - i && r == s[i..][..|r|]
    requires forall k :: 0 <= k < i ==> IsWhitespace(s[k])
    requires forall k :: |r| <= k < |s| - i ==> IsWhitespace(s[i..][k])
    requires r == [] || (!IsWhitespace(r[0]) && !IsWhitespace(r[|r| - 1]))
    ensures Core(s, i, i + |r|) && r == s[i..i + |r|]
  {
    var j := i + |r|;
    forall k | j <= k < |s| ensures IsWhitespace(s[k]) {
      assert s[k] == s[i..][k - i];
    }
    if r != [] {
      assert s[i] == r[0];
      assert s[j - 1] == r[|r| - 1];
    }
  }

  /** The trimmed string is the slice of `s` between its leading and trailing whitespace. */
  lemma TrimIsCore(s: string)
    ensures exists i, j :: TrimSlice(s, i, j)
  {
    var t := TrimStart(s);
    var i := |s| - |t|;
    var r := TrimEnd(t);
    CoreOfParts(s, i, r);
    assert TrimSlice(s, i, i + |r|);
  }

  /** Trimming yields the empty string exactly for whitespace-only strings. */
  lemma TrimEmptyIff(s: string)
    ensures Trim(s) == "" <==> forall k :: 0 <= k < |s| ==> IsWhitespace(s[k])
  {
  }
}

=== FILE: user_codec.dfy ===
/**
 * `JSON.stringify` and `JSON.parse` of the user record the auth context keeps
 * under the `user` storage key: `{token, email, username}`, where a missing
 * email or username is left out of the text as JSON.stringify leaves out
 * undefined members.
 */
module UserCodec {
  import opened Js

  datatype User = User(token: string, email: Option<string>, username: Option<string>)

  /** The lower-case hexadecimal digit JSON.stringify writes for `n`. */
  function HexDigit(n: nat): char
    requires n < 16
  {
    if n < 10 then ('0' as int + n) as char else ('a' as int + n - 10) as char
  }

  /** The value of a hexadecimal digit in either case, if `c` is one. */
  function HexValue(c: char): Option<nat> {
    if '0' <= c <= '9' then Some(c as int - '0' as int)
    else if 'a' <= c <= 'f' then Some(c as int - 'a' as int + 10)
    else if 'A' <= c <= 'F' then Some(c as int - 'A' as int + 10)
    else None
  }

  lemma HexDigitValue(n: nat)
    requires n < 16
    ensures HexValue(HexDigit(n)) == Some(n)
  {
  }

  /** How JSON.stringify writes one character inside a string literal. */
  function EscapeChar(c: char): string {
    if c == '"' then "\\\""
    else if c == '\\' then "\\\\"
    else if c == '\U{0008}' then "\\b"
    else if c == '\U{000C}' then "\\f"
    else if c == '\n' then "\\n"
    else if c == '\r' then "\\r"
    else if c == '\t' then "\\t"
    else if c < ' ' then "\\u00" + [HexDigit(c as int / 16), HexDigit(c as int % 16)]
    else [c]
  }

  function Escape(s: string): string {
    if |s| == 0 then "" else EscapeChar(s[0]) + Escape(s[1..])
  }

  /** A JSON string literal. */
  function Quote(s: string): string {
    "\"" + Escape(s) + "\""
  }

  /** The four hexadecimal digits of a `\u` escape, as a character; surrogate halves are refused. */
  function Hex4(s: string): Option<char>
    requires |s| == 4
  {
    var a, b, c, d := HexValue(s[0]), HexValue(s[1]), HexValue(s[2]), HexValue(s[3]);
    if a.None? || b.None? || c.None? || d.None? then None
    else
      var n := ((a.value * 16 + b.value) * 16 + c.value) * 16 + d.value;
      if 0xD800 <= n < 0xE000 then None else Some(n as char)
  }

  /** The character a backslash escape stands for, with the number of characters after the backslash it used. */
  function Unescape(s: string): Option<(char, nat)>
    requires |s| >= 1
  {
    var e := s[0];
    if e == '"' || e == '\\' || e == '/' then Some((e, 1))
    else if e == 'b' then Some(('\U{0008}', 1))
    else if e == 'f' then Some(('\U{000C}', 1))
    else if e == 'n' then Some(('\n', 1))
    else if e == 'r' then Some(('\r', 1))
    else if e == 't' then Some(('\t', 1))
    else if e == 'u' && |s| >= 5 then
      match Hex4(s[1..5]) {
        case Some(c) => Some((c, 5))
        case None => None
      }
    else None
  }

  /**
   * Reads the body of a string literal whose opening quote has been consumed:
   * the decoded text and what follows the closing quote.
   */
  function ParseChars(s: string): Option<(string, string)>
    decreases |s|
  {
    if |s| == 0 then None
    else if s[0] == '"' then Some(("", s[1..]))
    else if s[0] == '\\' then
      if |s| < 2 then None
      else match Unescape(s[1..]) {
        case None => None
        case Some((c, n)) =>
          if 1 + n > |s| then None
          else match ParseChars(s[1 + n..]) {
            case None => None
            case Some((t, rest)) => Some(([c] + t, rest))
          }
      }
    else if s[0] < ' ' then None
    else match ParseChars(s[1..]) {
      case None => None
      case Some((t, rest)) => Some(([s[0]] + t, rest))
    }
  }

  /** A string literal at the head of `s`: its value and the remaining text. */
  function ParseString(s: string): Option<(string, string)> {
    if |s| >= 1 && s[0] == '"' then ParseChars(s[1..]) else None
  }

  /** Reading one escaped character back gives the character and leaves the rest alone. */
  lemma ParseEscapedChar(c: char, t: string)
    ensures |EscapeChar(c)| >= 1
    ensures ParseChars(EscapeChar(c) + t) ==
      match ParseChars(t) {
        case None => None
        case Some((v, rest)) => Some(([c] + v, rest))
      }
  {
    var s := EscapeChar(c) + t;
    if c < ' ' && c != '\U{0008}' && c != '\U{000C}' && c != '\n' && c != '\r' && c != '\t' {
      var hi, lo := c as int / 16, c as int % 16;
      HexDigitValue(hi);
      HexDigitValue(lo);
      assert EscapeChar(c) == ['\\', 'u', '0', '0', HexDigit(hi), HexDigit(lo)];
      assert s[1..][1..5] == s[2..6] == ['0', '0', HexDigit(hi), HexDigit(lo)];
      assert Hex4(s[1..][1..5]) == Some(c);
      assert s[6..] == t;
    } else if |EscapeChar(c)| == 2 {
      assert s[2..] == t;
    } else {
      assert s[1..] == t;
    }
  }

  /** A quoted string reads back as the original text, followed by what came after it. */
  lemma {:induction false} ParseQuoted(s: string, rest: string)
    ensures ParseString(Quote(s) + rest) == Some((s, rest))
  {
    assert Quote(s) + rest == "\"" + (Escape(s) + "\"" + rest);
    ParseBody(s, rest);
  }

  lemma {:induction false} ParseBody(s: string, rest: string)
    ensures ParseChars(Escape(s) + "\"" + rest) == Some((s, rest))
    decreases |s|
  {
    if |s| == 0 {
      assert Escape(s) + "\"" + rest == "\"" + rest;
    } else {
      var t := Escape(s[1..]) + "\"" + rest;
      ParseBody(s[1..], rest);
      assert Escape(s) == EscapeChar(s[0]) + Escape(s[1..]);
      assert Escape(s) + "\"" + rest == EscapeChar(s[0]) + t;
      ParseEscapedChar(s[0], t);
      assert ParseChars(EscapeChar(s[0]) + t) == Some(([s[0]] + s[1..], rest));
      assert [s[0]] + s[1..] == s;
    }
  }

  /** `,"key":"value"` for a present member, nothing for an undefined one. */
  function Member(key: string, v: Option<string>): string {
    if v.Some? then ",\"" + key + "\":" + Quote(v.value) else ""
  }

  const TokenOpen := "{\"token\":"

  /** What follows the token: the members that are defined, then the closing brace. */
  function Members(u: User): string {
    Member("email", u.email) + Member("username", u.username) + "}"
  }

  /** `JSON.stringify(user)`. */
  function Encode(u: User): string {
    TokenOpen + Quote(u.token) + Members(u)
  }

  predicate StartsWith(s: string, p: string) {
    |p| <= |s| && s[..|p|] == p
  }

  /** An optional `,"key":"value"` member at the head of `s`. */
  function ParseMember(key: string, s: string): Option<(Option<string>, string)> {
    var p := ",\"" + key + "\":";
    if StartsWith(s, p) then
      match ParseString(s[|p|..]) {
        case None => None
        case Some((v, rest)) => Some((Some(v), rest))
      }
    else Some((None, s))
  }

  /**
   * `JSON.parse` of a stored user, for texts laid out as `Encode` lays them
   * out; any other text gives None.
   */
  function Decode(s: string): Option<User> {
    if !StartsWith(s, TokenOpen) then None
    else match ParseString(s[|TokenOpen|..]) {
      case None => None
      case Some((token, rest)) => DecodeMembers(token, rest)
    }
  }

  /** The optional email and username members after the token, then the closing brace. */
  function DecodeMembers(token: string, s: string): Option<User> {
    match ParseMember("email", s) {
      case None => None
      case Some((email, r2)) =>
        match ParseMember("username", r2) {
          case None => None
          case Some((username, r3)) =>
            if r3 == "}" then Some(User(token, email, username)) else None
        }
    }
  }

  lemma StripPrefix(p: string, x: string)
    ensures StartsWith(p + x, p)
    ensures (p + x)[|p|..] == x
  {
    assert (p + x)[..|p|] == p;
  }

  lemma ParseMemberOf(key: string, v: Option<string>, rest: string)
    requires !StartsWith(rest, ",\"" + key + "\":")
    ensures ParseMember(key, Member(key, v) + rest) == Some((v, rest))
  {
    var p := ",\"" + key + "\":";
    if v.Some? {
      assert Member(key, v) + rest == p + (Quote(v.value) + rest);
      StripPrefix(p, Quote(v.value) + rest);
      ParseQuoted(v.value, rest);
    } else {
      assert Member(key, v) + rest == rest;
    }
  }

  lemma TailNotEmail(username: Option<string>)
    ensures !StartsWith(Member("username", username) + "}", ",\"email\":")
  {
    var t := Member("username", username) + "}";
    if username.Some? {
      assert t[2] == 'u';
    } else {
      assert |t| == 1;
    }
  }

  /** The members stringify writes after the token read back as the user's email and username. */
  lemma DecodeMembersOf(u: User)
    ensures DecodeMembers(u.token, Members(u)) == Some(u)
  {
    var t2 := Member("username", u.username) + "}";
    assert Members(u) == Member("email", u.email) + t2;
    TailNotEmail(u.username);
    ParseMemberOf("email", u.email, t2);
    assert !StartsWith("}", ",\"username\":");
    ParseMemberOf("username", u.username, "}");
  }

  /** Parsing what stringify wrote gives back the same user. */
  lemma {:induction false} DecodeEncode(u: User)
    ensures Decode(Encode(u)) == Some(u)
  {
    var tail := Members(u);
    assert Encode(u) == TokenOpen + (Quote(u.token) + tail);
    StripPrefix(TokenOpen, Quote(u.token) + tail);
    ParseQuoted(u.token, tail);
    DecodeMembersOf(u);
  }
}
